=== FILE: README.md ===
# Quiz engine, seeders and permission seed — a Dafny model

This project models the deterministic core of a NestJS backend for a
devotional app.

- **Quiz service.** It covers the catalog reads (`getQuizzesByLevel`,
  `getQuizById`) and the attempt state machine: start, answer, complete and
  read the result.
  - The store is one immutable value. The quiz, question and answer tables
    are sequences in row order. Attempts are a map keyed by id.
  - Every operation is a pure function of the store. Operations that write
    return a `Step`: the store afterwards together with a `Result` for the
    caller, whose errors are `NotFound` or `Internal`.
  - The request DTOs' validation constraints are predicates. The service
    operations take them as preconditions, because the framework's
    validation pipe rejects invalid requests before the service runs.
- **Option lists.** A question's option list is stored as JSON text, written
  with `JSON.stringify` and read back with `JSON.parse`. The codec is
  modelled for arrays of strings: the encoder follows ECMA-262's
  QuoteJSONString, and the decoder follows sections 2, 5 and 7 of RFC 8259.
  Decoding what was encoded gives back the list.
- **Startup seeders.** Prayers and quizzes are seeded from JSON files only
  when their tables are empty. Question rows are tied to their quiz's new id.
- **Bible import.** This covers `chunkArray`, the book upsert, chapter
  creation, the skip of chapters without a stored id, 1-based verse
  numbering and batched inserts.
- **`seed` command.** This covers the five roles, the 31 permissions
  generated from the hard-coded groups with ids `"1"`…`"31"`, and the grants
  the title filters select for each role.

Behaviours of the code that a reader might not expect. The model follows
the code in each case.

- `getAttemptResult` skips the ownership check for any falsy `userId`, the
  empty string included, and not only for an omitted one.
  This is `ChecksOwner`.
- A missing attempt and an attempt owned by someone else both fail with the
  not-found class. Their messages differ, though, so the two cases are
  observably distinct. The model keeps the distinction as `AttemptNotFound`
  and `NoAccess`.
- `completeQuizAttempt` writes the score and completion time before it
  decodes the option lists. An undecodable list therefore yields an
  internal error after the write has happened.
- `completeQuizAttempt` reads the clock twice: once for the stored time and
  once for the reported time.
- `submitAnswer` neither checks that the question belongs to the attempt's
  quiz nor rejects a repeated answer. A counter can therefore pass the
  question count, and the score can pass 100. `RepeatAnswerRun` shows a
  concrete run that ends with a score of 200.
- The role "3", "4" and "5" filters compare titles against lower-case
  literals (`project_read`, `task_read`, `comment…`). The generated titles
  start `Project_`, `Task_` and `Comment_`. As written:
  - role "3" receives only the `Task_*` and `Comment_*` permissions;
  - roles "4" and "5" receive none.

## Model

| member | source | states |
|---|---|---|
| Seqs.Filter | src/modules/application/quiz/quiz.service.ts:25-29 | a `where` filter keeps only rows satisfying the condition, never more rows than the table, and only rows of the table |
| Seqs.FilterKeeps | src/modules/application/quiz/quiz.service.ts:25-29 | every kept row comes from the table and every table row satisfying the condition is kept |
| Seqs.FilterPartition | src/command/seed.command.ts:111-134 | two filters with complementary conditions split the table between them exactly (as multisets) |
| Seqs.FirstIndex | src/modules/application/quiz/quiz.service.ts:70-71 | the lookup returns the first matching position, and returns nothing exactly when no row matches |
| Seqs.FindFirst | src/modules/application/quiz/quiz.service.ts:70-71 | a found row matches and is in the table; nothing is found exactly when no row matches |
| Seqs.InsertBy | src/modules/application/quiz/quiz.service.ts:47-49 | inserting into a sorted list keeps it sorted and adds exactly the one row |
| Seqs.SortBy | src/modules/application/quiz/quiz.service.ts:47-49 | `orderBy sort_order asc` yields a permutation of the rows that is non-decreasing in `sort_order` |
| Seqs.Window | src/modules/application/quiz/quiz.service.ts:50-51 | `skip`/`take` yields `min(take, n - skip)` rows (none past the end), the rows from position `skip` on |
| Seqs.WindowSorted | src/modules/application/quiz/quiz.service.ts:47-51 | a page of a sorted list is sorted |
| Seqs.InsertByClass | src/modules/application/quiz/quiz.service.ts:47-49 | inserting a row into a sorted list puts it in front of the rows with the same `sort_order` and leaves the order among the others alone |
| Seqs.SortByStable | src/modules/application/quiz/quiz.service.ts:47-49 | the sort is stable: the rows sharing a `sort_order` come out in the order they went in |
| Seqs.SortBySorted | src/modules/application/quiz/quiz.service.ts:47-49 | rows already in `sort_order` order come out unchanged |
| QuizModel.FindQuiz | src/modules/application/quiz/quiz.service.ts:70-71 | `findUnique` by id: a found quiz has that id and is stored; none exactly when no stored quiz has it |
| QuizModel.FindQuestion | src/modules/application/quiz/quiz.service.ts:175-177 | `findUnique` of a question: found iff some stored question has the id |
| QuizModel.QuestionsOf | src/modules/application/quiz/quiz.service.ts:115-120 | a quiz's included questions are exactly the stored questions with its id |
| QuizModel.OrderedQuestions | src/modules/application/quiz/quiz.service.ts:77-87 | the questions of a quiz, as a permutation sorted by `sort_order` |
| QuizModel.AnswersOf | src/modules/application/quiz/quiz.service.ts:228-237 | an attempt's `quiz_answers` are stored answers carrying its id, every stored answer carrying its id is among them, and there are none when no answer does |
| QuizModel.AnswersOfIsFilter | src/modules/application/quiz/quiz.service.ts:228-237 | an attempt's `quiz_answers` are exactly the answer table filtered by its id, in table order |
| QuizModel.CorrectCountOfAnswers | src/modules/application/quiz/quiz.service.ts:187-205 | the reference count of an attempt is the number of its answers marked correct, so it never exceeds its answers |
| QuizDto.Level | src/modules/application/quiz/dto/get-quizzes-by-level.dto.ts:4-9 | a validated level is an integer in [1,3] equal to the query's number |
| QuizDto.Page | src/modules/application/quiz/quiz.service.ts:20 | the page is the query's when present and 1 otherwise, and is at least 1 |
| QuizDto.Limit | src/modules/application/quiz/quiz.service.ts:21 | the limit is the query's when present and 10 otherwise, and lies in [1,100] |
| QuizDto.Skip | src/modules/application/quiz/quiz.service.ts:22 | skip is a non-negative whole number of pages, `page - 1` of them, and zero exactly on page 1 |
| QuizDto.SelectedAnswerUnbounded | src/modules/application/quiz/dto/submit-quiz-answer.dto.ts:10-13 | a fractional selected answer and one beyond every option both pass validation |
| Scoring.Score | src/modules/application/quiz/quiz.service.ts:248-251 | the score is 0 for an attempt without questions and otherwise satisfies `score * total == correct * 100` |
| Scoring.ScoreAtMostHundred | src/modules/application/quiz/quiz.service.ts:248-251 | the score is at most 100 if and only if the counter does not exceed the question count |
| Scoring.ScoreMonotone | src/modules/application/quiz/quiz.service.ts:248-251 | more correct answers never lower the score |
| Scoring.ScoreFull | src/modules/application/quiz/quiz.service.ts:248-251 | every answer correct scores exactly 100 |
| Scoring.ScoreExamples | src/modules/application/quiz/quiz.service.ts:248-251 | concrete scores: 0/0 is 0, 5/5 is 100, 2/5 is 40, 3/4 is 75 |
| JsonStrings.ParseEscapedChar | src/prisma/auto-seeder.service.ts:98 | every character as `JSON.stringify` escapes it parses back to that character, whatever follows |
| JsonStrings.StringBodyRoundTrip | src/prisma/auto-seeder.service.ts:98 | an escaped string followed by its closing quote parses back to the string and leaves the rest |
| JsonStrings.ElementsRoundTrip | src/prisma/auto-seeder.service.ts:98 | the encoded elements of a non-empty list followed by `]` parse back to the list |
| JsonStrings.DecodeEmptyArray | src/modules/application/quiz/quiz.service.ts:59 | `JSON.parse('[]')` is the empty list |
| JsonStrings.DecodeEncode | src/modules/application/quiz/quiz.service.ts:59 | `JSON.parse(JSON.stringify(options))` gives back the option list, for every list of strings |
| JsonStrings.EncodeInjective | src/prisma/auto-seeder.service.ts:98 | different option lists are never stored as the same text |
| QuizService.ViewQuestions | src/modules/application/quiz/quiz.service.ts:56-61 | questions map to views with decoded options, one per question in order, and the mapping fails iff some option text does not decode |
| QuizService.ViewQuiz | src/modules/application/quiz/quiz.service.ts:95-103 | a quiz view carries the quiz's id, title, description and level and, for each of its questions in `sort_order`, the question's id, text, decoded options and explanation; it fails iff an option list does not decode |
| Seqs.MapAll | src/modules/application/quiz/quiz.service.ts:54-62 | mapping with a callback that may fail succeeds iff every application does, and then holds each element's image in order |
| QuizService.ViewQuizzes | src/modules/application/quiz/quiz.service.ts:54-62 | the list of views succeeds iff every quiz's view does, and is then exactly those views in order |
| QuizService.SelectQuizzes | src/modules/application/quiz/quiz.service.ts:25-52 | row `i` of the page is row `skip + i` of the level's active quizzes in `sort_order` order, and the page has the size the window dictates; so the page holds only stored, active quizzes of the level, sorted, drawn from the matching quizzes |
| QuizService.CatalogActive | src/modules/application/quiz/quiz.service.ts:25-29 | every quiz of a level's ordered catalog is a stored quiz of that level with status 1 |
| QuizService.ListQuizzes | src/modules/application/quiz/quiz.service.ts:24-65 | listing succeeds iff every selected quiz's options decode, returning at most `take` views, the `i`-th being the full view (header and decoded questions) of the `i`-th selected quiz; otherwise it fails with "Failed to load quizzes" |
| QuizService.GetQuizzesByLevel | src/modules/application/quiz/quiz.service.ts:17-66 | a valid query yields at most `limit` quizzes, all of the requested level, or the internal "Failed to load quizzes" error; on success the `i`-th view is that of the quiz at position `(page - 1) * limit + i` of the level's active quizzes in `sort_order` order, so the page is sorted and holds only active quizzes |
| QuizService.GetQuizById | src/modules/application/quiz/quiz.service.ts:68-110 | an absent id, and only an absent id, gives NotFound; status is not filtered; an undecodable option list gives the internal error; success returns the quiz's id, title, description and level with a view of each of its questions in `sort_order` |
| QuizService.StartQuizAttempt | src/modules/application/quiz/quiz.service.ts:112-157 | quiz checked before user, both NotFound; on success exactly one attempt is added, snapshotting the quiz's current question count, which is also returned; on failure the store is unchanged |
| QuizService.SubmitAnswer | src/modules/application/quiz/quiz.service.ts:159-220 | errors in the order attempt missing, foreign owner, question missing, each leaving the store unchanged; on success `isCorrect` iff the correct answer equals the selection, exactly one answer appended, the counter raised by one iff correct, no other attempt or table touched |
| QuizService.ExplanationText | src/modules/application/quiz/quiz.service.ts:270 | a missing explanation reads as the empty string, a present one as itself |
| QuizService.AnswerEntries | src/modules/application/quiz/quiz.service.ts:228-237 | the entries of an attempt's answers exist iff every answer's question is stored; when the options decode there is one entry per answer, carrying the answer's fields and its question's |
| QuizService.JoinQuestions | src/modules/application/quiz/quiz.service.ts:228-237 | each answer is joined with the stored question of its id; the join fails iff some question is missing |
| QuizService.ViewAnswers | src/modules/application/quiz/quiz.service.ts:263-271 | one result entry per answer, carrying the stored answer's selection and `is_correct` and the question's text, correct answer, decoded options and explanation; fails iff some option text does not decode |
| QuizService.Stamp | src/modules/application/quiz/quiz.service.ts:253-260 | the update sets the attempt's score and completion time and leaves every other attempt and table as it was |
| QuizService.CompleteQuizAttempt | src/modules/application/quiz/quiz.service.ts:222-289 | a missing attempt is NotFound; an answer whose question is missing fails the joined `findUnique` with "Failed to complete quiz" before the owner check; a non-owner then gets NotFound; otherwise stamps the attempt with the score and the first clock reading and changes nothing else (even when decoding then fails); reports the counters, the score, the second clock reading and, for each of the attempt's answers in table order, its question id, selection and `is_correct` with the question's text, correct answer, decoded options and explanation (`''` when missing) |
| QuizService.GetAttemptResult | src/modules/application/quiz/quiz.service.ts:291-341 | a read that fails with "Failed to get quiz result" when an answer's question is missing, before any owner check; it checks ownership only for a non-empty caller id and reports the attempt as persisted, with an entry for each of the attempt's answers in table order, built from the answer and its question as in completion |
| QuizInvariants.CorrectCountAppend | src/modules/application/quiz/quiz.service.ts:187-205 | recording one answer raises its own attempt's correct count by one exactly when it is correct, and no other attempt's |
| QuizInvariants.CorrectCountNone | src/modules/application/quiz/quiz.service.ts:137-143 | an attempt with no answers has a correct count of zero |
| QuizInvariants.StartPreservesConsistent | src/modules/application/quiz/quiz.service.ts:137-143 | starting an attempt keeps every counter equal to its attempt's correct answers |
| QuizInvariants.SubmitPreservesConsistent | src/modules/application/quiz/quiz.service.ts:184-206 | answering keeps every counter equal to its attempt's correct answers |
| QuizInvariants.CompletePreservesConsistent | src/modules/application/quiz/quiz.service.ts:254-260 | completing keeps every counter equal to its attempt's correct answers |
| QuizInvariants.SubmitKeepsAttempts | src/modules/application/quiz/quiz.service.ts:184-206 | answering never changes an attempt's owner, quiz or question snapshot, and never lowers a counter |
| QuizInvariants.CompleteKeepsAttempts | src/modules/application/quiz/quiz.service.ts:254-260 | completing never changes an attempt's owner, quiz, snapshot or counter, nor any answer |
| QuizInvariants.JoinQuestionsFrame | src/modules/application/quiz/quiz.service.ts:299-303 | the questions joined to answers depend on the question table only |
| QuizInvariants.AnswerEntriesFrame | src/modules/application/quiz/quiz.service.ts:315-323 | an attempt's result entries do not depend on the attempt rows |
| QuizInvariants.ResultAfterComplete | src/modules/application/quiz/quiz.service.ts:254-334 | after a completion, reading the result (with or without the owner's id) returns exactly what completion reported, except that the time is the stored one |
| QuizInvariants.CompleteAgain | src/modules/application/quiz/quiz.service.ts:248-260 | completing again succeeds and recomputes the score from the current counter, stamping the newer time |
| QuizInvariants.AnswerAfterComplete | src/modules/application/quiz/quiz.service.ts:159-206 | an answer after completion is still accepted and counted, while the stored score stays stale |
| QuizInvariants.FractionalNeverCorrect | src/modules/application/quiz/quiz.service.ts:184 | a selection with a fractional part is never correct and never changes a counter |
| QuizInvariants.RepeatAnswerExceedsTotal | src/modules/application/quiz/quiz.service.ts:175-206 | re-submitting a correct answer on a fully answered attempt lifts the counter above the question count, and completion then scores above 100 |
| QuizInvariants.CompletedScoreRange | src/modules/application/quiz/quiz.service.ts:248-251 | a completed score is non-negative, 0 without questions, and at most 100 iff the counter has not overtaken the snapshot |
| QuizInvariants.RepeatAnswerRun | src/modules/application/quiz/quiz.service.ts:137-260 | start, answer the one question correctly twice, complete: 2 correct out of 1 and a stored score of 200 |
| AutoSeeder.SeedPrayers | src/prisma/auto-seeder.service.ts:36-56 | prayers are appended only when the file has a non-empty list; otherwise nothing changes; no other table is touched |
| AutoSeeder.QuizRow | src/prisma/auto-seeder.service.ts:86-93 | a created quiz copies the seed fields, gets `sort_order` 0 when absent and the assumed default status 1 |
| AutoSeeder.QuestionRow | src/prisma/auto-seeder.service.ts:95-102 | a created question carries its quiz's id and the seed fields, with `sort_order` 0 when absent |
| AutoSeeder.SeededOptionsDecode | src/prisma/auto-seeder.service.ts:98 | a seeded question's stored options decode back to the seed list |
| AutoSeeder.QuestionRows | src/prisma/auto-seeder.service.ts:95-102 | one question row per seed question, in order, every one tied to the quiz's id |
| AutoSeeder.QuizRows | src/prisma/auto-seeder.service.ts:85-93 | one quiz row per seed quiz, in file order, each with its generated id |
| AutoSeeder.SeedQuizzes | src/prisma/auto-seeder.service.ts:58-117 | nothing is written for a missing or empty list; otherwise every quiz and its questions are created and the logged total is computed, unless an entry lacks its question list, in which case the rows written up to that entry's quiz stay and nothing is logged |
| AutoSeeder.CreateRows | src/prisma/auto-seeder.service.ts:83-109 | the loop creates the rows of each quiz in turn up to the first one without questions, with the running question total |
| AutoSeeder.AutoSeed | src/prisma/auto-seeder.service.ts:16-34 | prayers are seeded only into an empty prayer table and quizzes only into an empty quiz table; with both non-empty nothing changes; users, attempts and answers are never touched; into an empty quiz table, a file without data writes nothing, a complete file writes exactly its quiz and question rows, and a file with an entry lacking questions writes the rows up to and including that entry's quiz |
| AutoSeeder.QuestionRowsCount | src/prisma/auto-seeder.service.ts:83-108 | the logged total equals the number of question rows created |
| AutoSeeder.SeededRowsOfQuiz | src/prisma/auto-seeder.service.ts:85-102 | among the seeded questions, those under a quiz's id are exactly the rows built from that quiz's entry |
| AutoSeeder.SeededQuestionsOf | src/prisma/auto-seeder.service.ts:85-106 | after seeding, a seeded quiz's questions are exactly its seed questions, so an attempt on it snapshots the seed count |
| BibleImport.ChunkArray | src/modules/bible/bible-import.service.ts:16-25 | a size of at most 0 gives `[items]`; otherwise the chunks concatenate to the items, each holds 1 to `size` items, all but the last exactly `size`, and there are none iff there are no items |
| BibleImport.ChunkCount | src/modules/bible/bible-import.service.ts:20-24 | for a positive size there are `ceil(n / size)` chunks |
| BibleImport.ChunkBounds | src/modules/bible/bible-import.service.ts:21-23 | the chunks hold all items, and one chunk fewer would not |
| BibleImport.VerseRows | src/modules/bible/bible-import.service.ts:88-92 | a chapter's verse rows are numbered 1..k in file order, carry the verse texts and all carry the chapter's id |
| BibleImport.InsertVerses | src/modules/bible/bible-import.service.ts:96-99 | an insert with `skipDuplicates` keeps the stored verses in front, appends only given rows, at most all of them, and afterwards every given row's chapter and number is stored |
| BibleImport.InsertVersesStep | src/modules/bible/bible-import.service.ts:96-99 | one row of the insert: the row's key is stored afterwards and what is appended comes from the rows |
| BibleImport.InsertVersesAppend | src/modules/bible/bible-import.service.ts:95-100 | two inserts in a row are one insert of the concatenation |
| BibleImport.BatchesAreFlat | src/modules/bible/bible-import.service.ts:95-100 | inserting in batches stores the same as inserting all rows at once |
| BibleImport.InsertFreshChapter | src/modules/bible/bible-import.service.ts:88-99 | into a table with no verse of the chapter, all of its numbered rows are stored |
| BibleImport.FindBook | src/modules/bible/bible-import.service.ts:55-56 | a found book has the name and is stored; none exactly when no stored book has the name |
| BibleImport.UpsertBook | src/modules/bible/bible-import.service.ts:55-59 | an existing book of the name is returned unchanged; otherwise exactly one book is created; afterwards a book of the name exists |
| BibleImport.FindChapter | src/modules/bible/bible-import.service.ts:73-83 | a book's chapter by number is found iff a stored chapter has that book and number |
| BibleImport.InsertChapter | src/modules/bible/bible-import.service.ts:66-70 | a chapter is created iff its book has no chapter of that number; afterwards one exists; uniqueness is kept |
| BibleImport.CreateChapters | src/modules/bible/bible-import.service.ts:61-71 | creating a book's chapters keeps the stored chapters in front, unchanged |
| BibleImport.CreateChaptersFindsAll | src/modules/bible/bible-import.service.ts:61-75 | after `createMany`, the book's chapters read back hold a chapter for every chapter number of the file |
| BibleImport.CreateChaptersUnique | src/modules/bible/bible-import.service.ts:66-70 | creating chapters with `skipDuplicates` keeps at most one chapter per book and number |
| BibleImport.ImportChapter | src/modules/bible/bible-import.service.ts:82-100 | a chapter without a stored, non-empty id is skipped and counts 0; otherwise its numbered verses are inserted and count its verse total; only the verse table changes |
| BibleImport.ImportChapters | src/modules/bible/bible-import.service.ts:81-101 | `totalVerses` counts exactly the verses of the chapters found, never more than the file's, and verses are only appended |
| BibleImport.NoneSkipped | src/modules/bible/bible-import.service.ts:81-94 | when every chapter of the file is stored with a non-empty id, `totalVerses` is all the file's verses |
| BibleImport.ImportBook | src/modules/bible/bible-import.service.ts:54-105 | one book: its chapters are created, verses only appended, and the log line carries the name, the file's chapter count and the found verses |
| BibleImport.ImportBookStoresChapters | src/modules/bible/bible-import.service.ts:54-79 | after a book is imported it is stored under its name and every chapter number of the file has a stored chapter of that book |
| BibleImport.ImportBooks | src/modules/bible/bible-import.service.ts:54-106 | one log line per book; stored chapters and verses are only ever appended to |
| BibleImport.ImportBibleIfNeeded | src/modules/bible/bible-import.service.ts:38-109 | a non-empty verse table or a file without books means no change; an unreadable file is the only failure; otherwise one log line per book and chapters only appended |
| SeedCommand.NatToString | src/command/seed.command.ts:80 | `String(n)` is a non-empty decimal text |
| SeedCommand.NatStringRoundTrip | src/command/seed.command.ts:80 | reading back `String(n)` gives `n` |
| SeedCommand.NatToStringInjective | src/command/seed.command.ts:80 | two counters give the same id text iff they are equal |
| SeedCommand.Substring | src/command/seed.command.ts:112 | `substring` never yields more characters than the string has |
| SeedCommand.SubstringPrefix | src/command/seed.command.ts:112 | comparing the title's leading substring of `p`'s length with `p` succeeds iff `p` is a prefix of the title |
| SeedCommand.Roles | src/command/seed.command.ts:220-252 | exactly five roles with ids `"1"` to `"5"` in order |
| SeedCommand.GroupEntries | src/command/seed.command.ts:76-101 | a group yields one entry per action: its scope when present, otherwise read, create, update, show, delete, in that order |
| SeedCommand.NumberSnoc | src/command/seed.command.ts:79-84 | one more push adds one permission made at the next counter value |
| SeedCommand.PermissionSeed | src/command/seed.command.ts:55-107 | the nested loops with the running counter produce exactly the numbered permissions of the groups' entries |
| SeedCommand.PushGroup | src/command/seed.command.ts:77-100 | the inner loop appends one numbered permission per action of the group, continuing the counter |
| SeedCommand.GenerateShape | src/command/seed.command.ts:79-99 | the `k`-th permission has id `String(k + 1)`, title group title + `_` + action, the capitalised action and the group's subject |
| SeedCommand.EntriesLayout | src/command/seed.command.ts:58-74 | the generated entries are the six hard-coded groups' entries, group after group |
| SeedCommand.PermissionCount | src/command/seed.command.ts:58-101 | the hard-coded groups yield 31 permissions |
| SeedCommand.PermissionIdsDistinct | src/command/seed.command.ts:56-95 | no two generated permissions share an id |
| SeedCommand.GrantsFor | src/command/seed.command.ts:117-123 | one grant per selected permission, in order, under the role's id |
| SeedCommand.AdminSplit | src/command/seed.command.ts:111-134 | roles "1" and "2" partition any permission table by the 25-character system prefix |
| SeedCommand.HeadRejects | src/command/seed.command.ts:149-205 | a title's first character rules filters out: role "1" needs `s`, role "3" `p`, `T` or `C`, roles "4" and "5" `p`, `t` or `c` |
| SeedCommand.TitleSelection | src/command/seed.command.ts:111-205 | a title starting with a group title and `_` is selected by role "1" iff the group is the system group, by role "2" iff not, by role "3" iff the group is Task or Comment, and by neither role "4" nor role "5" |
| SeedCommand.EntryGroups | src/command/seed.command.ts:58-101 | entries 0-4 are system-tenant, 5-9 user, 10-14 role, 15-19 Project, 20-25 Task and 26-30 Comment |
| SeedCommand.EntrySelection | src/command/seed.command.ts:109-205 | a generated permission is selected by the roles according to its group |
| SeedCommand.SelectionAt | src/command/seed.command.ts:109-205 | role "1" selects the first five generated permissions, role "2" the rest, role "3" those from the 21st on, roles "4" and "5" none |
| SeedCommand.RoleSelections | src/command/seed.command.ts:109-218 | over the generated permissions, role "1" gets the 5 system ones, role "2" the other 26, role "3" exactly the 11 `Task_*`/`Comment_*` ones, roles "4" and "5" nothing |
| SeedCommand.SeedGrants | src/command/seed.command.ts:109-218 | a fresh seed writes 42 grants: 5 for role "1", 26 for role "2" and 11 for role "3" |

## Left out

- File reading and `JSON.parse` of the seed and Bible files are not modelled. The files enter as already-parsed values.
- Logging is not modelled, except the totals the log lines report.
- `$transaction` is not modelled. Two Prisma failures are modelled: a duplicate generated id, and an answer whose question row is missing, which fails the joined `findUnique` of `completeQuizAttempt` and `getAttemptResult`. Other Prisma failures are not modelled. The catch-all `Internal` path they would take (for example "Failed to submit answer") is left out.
- Concurrency and the database's atomic increment are left out. Each service call is one atomic step.
- The wall clock (`new Date()`) is a parameter. `completeQuizAttempt` takes two readings.
- Ids generated by the database are parameters of the operations that create rows.
- Scoring.Score: computes the exact rational `correct / total * 100`. JavaScript floating-point rounding is not modelled.
- JsonStrings.Decode: accepts only an array of strings and rejects every other JSON value. The model assumes the stored options are always such arrays. The seed file is only type-cast (src/prisma/auto-seeder.service.ts:61-75), so a question with `options: [1, 2]` would be stored and parsed back by the source, while the model reports the internal error.
- JsonStrings.Decode: rejects lone surrogate escapes, which JavaScript accepts. Dafny characters are Unicode scalar values, so such a string cannot be represented.
- QuizModel.Store: the uniqueness of ids and of a quiz's question rows is assumed by the database's keys. The lookups return the first matching row.
- BibleImport.InsertVerses: the `skipDuplicates` check assumes the verse table's unique key is `(chapter, number)`. The schema is not part of the model; with another key, `HasVerse` would decide duplicates differently.
- BibleImport.FindChapter: `chapterIdByNumber` keeps the last chapter of a number while the model takes the first. The two agree under the unique `(book, number)` key assumed here (`CreateChaptersUnique`).
- AutoSeeder.SeedPrayers: `skipDuplicates` on prayers is not modelled. The prayer table has no unique key in view, so every prayer is appended.
- `userSeed` is left out because it calls `UserRepository` and `appConfig`, which are not part of this model.
- `prayerSeed` is left out: it is a constant list insert.
- The Stripe controller and service, the OpenAI Bible service, `bible.service.ts`, and all controllers and modules are left out. They are external SDK calls, randomness, routing and wiring.
- `StringHelper.cfirst` is not modelled. It is a function parameter that is never interpreted.
- QuizModel.AnswersOf: `include: { quiz_answers }` has no `orderBy`, so the database may return an attempt's answers in any order. The model assumes insertion order. The entry-by-entry equalities of `CompleteQuizAttempt`, `GetAttemptResult` and `ResultAfterComplete` rest on that assumption; without it they hold only up to a permutation of the entries.
- Seqs.SortBy: `orderBy sort_order asc` leaves the order of rows with equal `sort_order` to the database. The model assumes the stable order (table order among ties). `SortByStable` states that order. Exact positions in `SelectQuizzes`, `ListQuizzes`, `GetQuizzesByLevel`, `ViewQuiz` and `GetQuizById` rest on that assumption; without it only the sorted permutation is promised.
- SeedCommand.SeedGrants: `permission.findMany()` has no `orderBy`. The model assumes the rows come back in insertion order, so the grants are in the order of the generated permissions. Without that assumption, only the set of grants per role is determined: 5, 26 and 11 grants.
- AutoSeeder.QuizRow: the create call sets no `status`, so the column default applies. The schema is not part of this model, and the default is assumed to be 1 (active). If the default differed, seeded quizzes would not be listed by `getQuizzesByLevel`.
- The per-book log message text and the order of log lines are not modelled. Only the counts in each `BookLog` are.

=== FILE: auto_seeder.dfy ===
/** Startup seeding: when the prayer table or the quiz table is empty, it is
    filled from a JSON file. The files enter the model already read: a file
    that cannot be read or parsed is `Unreadable`; a parsed file whose list
    is missing is `Loaded(None)`. Row ids generated by the database are
    parameters. Every failure is logged and swallowed, so seeding always
    yields a store. */
module AutoSeeder {
  import opened Results
  import opened QuizModel
  import JsonStrings
  import Seqs

  /** The status assumed for a created quiz: the create call sets none, so
      the column default applies; the schema is not part of this model and
      the default is taken to be 1 (active). */
  const DefaultStatus: int := 1

  datatype SeedFile<T> = Unreadable | Loaded(list: Option<seq<T>>)

  datatype SeedQuestion = SeedQuestion(
    question: string,
    options: seq<string>,
    correctAnswer: int,
    explanation: Option<string>,
    sortOrder: Option<int>)

  /** A quiz of the seed file; `questions` is `None` when the entry lacks
      the list, which makes the `map` over it throw. */
  datatype SeedQuiz = SeedQuiz(
    title: string,
    description: Option<string>,
    level: int,
    sortOrder: Option<int>,
    questions: Option<seq<SeedQuestion>>)

  /** `data?.list?.length` is truthy: the file parsed and has a non-empty list. */
  predicate HasData<T>(file: SeedFile<T>)
  {
    file.Loaded? && file.list.Some? && |file.list.value| > 0
  }

  // ---------------------------------------------------------------- prayers

  /** `seedPrayers`: inserts every prayer of the file, or nothing. */
  function SeedPrayers(s: Store, file: SeedFile<string>): (r: Store)
    ensures r == s.(prayers := r.prayers)
    ensures !HasData(file) ==> r == s
    ensures HasData(file) ==> r.prayers == s.prayers + file.list.value
  {
    if HasData(file) then s.(prayers := s.prayers + file.list.value) else s
  }

  // ---------------------------------------------------------------- quizzes

  /** The quiz row created for a seed entry; `sort_order` defaults to 0. */
  function QuizRow(d: SeedQuiz, id: Id): (r: Quiz)
    ensures r.id == id && r.title == d.title && r.description == d.description && r.level == d.level
    ensures d.sortOrder.None? ==> r.sortOrder == 0
    ensures d.sortOrder.Some? ==> r.sortOrder == d.sortOrder.value
    ensures r.status == DefaultStatus
  {
    Quiz(id, d.title, d.description, d.level, d.sortOrder.GetOr(0), DefaultStatus)
  }

  /** The question row created for a seed question of quiz `quizId`;
      `sort_order` defaults to 0. */
  function QuestionRow(q: SeedQuestion, quizId: Id, id: Id): (r: Question)
    ensures r.id == id && r.quizId == quizId
    ensures r.question == q.question && r.correctAnswer == q.correctAnswer && r.explanation == q.explanation
    ensures q.sortOrder.None? ==> r.sortOrder == 0
    ensures q.sortOrder.Some? ==> r.sortOrder == q.sortOrder.value
  {
    Question(id, quizId, q.question, JsonStrings.Encode(q.options), q.correctAnswer, q.explanation, q.sortOrder.GetOr(0))
  }

  /** A seeded question's options are stored as JSON text that decodes back
      to the seed list, so the catalog reads return them unchanged. */
  lemma SeededOptionsDecode(q: SeedQuestion, quizId: Id, id: Id)
    ensures JsonStrings.Decode(QuestionRow(q, quizId, id).options) == Success(q.options)
  {
    JsonStrings.DecodeEncode(q.options);
  }

  /** The question rows of the `k`-th seed quiz, all tied to its id. */
  function QuestionRows(qs: seq<SeedQuestion>, quizId: Id, k: nat, newQuestionId: (nat, nat) -> Id): (r: seq<Question>)
    ensures |r| == |qs|
    ensures forall j :: 0 <= j < |r| ==> r[j] == QuestionRow(qs[j], quizId, newQuestionId(k, j))
    ensures forall j :: 0 <= j < |r| ==> r[j].quizId == quizId
  {
    seq(|qs|, j requires 0 <= j < |qs| => QuestionRow(qs[j], quizId, newQuestionId(k, j)))
  }

  /** Every seed quiz before `n` carries its question list. */
  predicate ListsPresent(quizzes: seq<SeedQuiz>, n: nat)
  {
    n <= |quizzes| && forall i :: 0 <= i < n ==> quizzes[i].questions.Some?
  }

  /** The quiz rows of the first `n` seed quizzes, in file order. */
  function QuizRows(quizzes: seq<SeedQuiz>, n: nat, newQuizId: nat -> Id): (r: seq<Quiz>)
    requires n <= |quizzes|
    ensures |r| == n
    ensures forall i :: 0 <= i < n ==> r[i] == QuizRow(quizzes[i], newQuizId(i))
  {
    seq(n, i requires 0 <= i < n => QuizRow(quizzes[i], newQuizId(i)))
  }

  /** The question rows of the first `n` seed quizzes, quiz after quiz. */
  function QuestionRowsOf(quizzes: seq<SeedQuiz>, n: nat, newQuizId: nat -> Id, newQuestionId: (nat, nat) -> Id): seq<Question>
    requires ListsPresent(quizzes, n)
  {
    if n == 0 then []
    else QuestionRowsOf(quizzes, n - 1, newQuizId, newQuestionId)
         + QuestionRows(quizzes[n - 1].questions.value, newQuizId(n - 1), n - 1, newQuestionId)
  }

  /** The sum of the question-list lengths of the first `n` seed quizzes. */
  function TotalQuestions(quizzes: seq<SeedQuiz>, n: nat): nat
    requires ListsPresent(quizzes, n)
  {
    if n == 0 then 0 else TotalQuestions(quizzes, n - 1) + |quizzes[n - 1].questions.value|
  }

  /** `seedQuizzes`: creates each quiz of the file and then its questions.
      The first entry without a question list throws after its quiz row is
      created; the rows written so far stay (there is no transaction) and
      nothing is logged. `logged` is the question total of the final log
      line. */
  method SeedQuizzes(s: Store, file: SeedFile<SeedQuiz>, newQuizId: nat -> Id, newQuestionId: (nat, nat) -> Id)
    returns (r: Store, logged: Option<nat>)
    ensures r == s.(quizzes := r.quizzes, questions := r.questions)
    ensures !HasData(file) ==> r == s && logged.None?
    ensures HasData(file) ==>
      var quizzes := file.list.value;
      && (logged.Some? <==> ListsPresent(quizzes, |quizzes|))
      && (logged.Some? ==>
            && ListsPresent(quizzes, |quizzes|)
            && r.quizzes == s.quizzes + QuizRows(quizzes, |quizzes|, newQuizId)
            && r.questions == s.questions + QuestionRowsOf(quizzes, |quizzes|, newQuizId, newQuestionId)
            && logged.value == TotalQuestions(quizzes, |quizzes|))
      && (logged.None? ==>
            var m := |r.quizzes| - |s.quizzes| - 1;
            && 0 <= m < |quizzes| && quizzes[m].questions.None? && ListsPresent(quizzes, m)
            && r.quizzes == s.quizzes + QuizRows(quizzes, m + 1, newQuizId)
            && r.questions == s.questions + QuestionRowsOf(quizzes, m, newQuizId, newQuestionId))
  {
    if !HasData(file) {
      return s, None;
    }
    var quizzes := file.list.value;
    var n, quizRows, questionRows, total := CreateRows(quizzes, newQuizId, newQuestionId);
    if n < |quizzes| {
      QuizRowsStep(quizzes, n, newQuizId);
      r := s.(quizzes := s.quizzes + (quizRows + [QuizRow(quizzes[n], newQuizId(n))]),
              questions := s.questions + questionRows);
      logged := None;
    } else {
      r := s.(quizzes := s.quizzes + quizRows, questions := s.questions + questionRows);
      logged := Some(total);
    }
  }

  /** The loop of `seedQuizzes`: the rows of each seed quiz in turn, up to
      the first one without a question list, and the running question total. */
  method CreateRows(quizzes: seq<SeedQuiz>, newQuizId: nat -> Id, newQuestionId: (nat, nat) -> Id)
    returns (n: nat, quizRows: seq<Quiz>, questionRows: seq<Question>, total: nat)
    ensures ListsPresent(quizzes, n)
    ensures n < |quizzes| ==> quizzes[n].questions.None?
    ensures quizRows == QuizRows(quizzes, n, newQuizId)
    ensures questionRows == QuestionRowsOf(quizzes, n, newQuizId, newQuestionId)
    ensures total == TotalQuestions(quizzes, n)
  {
    quizRows, questionRows, total, n := [], [], 0, 0;
    while n < |quizzes| && quizzes[n].questions.Some?
      invariant ListsPresent(quizzes, n)
      invariant quizRows == QuizRows(quizzes, n, newQuizId)
      invariant questionRows == QuestionRowsOf(quizzes, n, newQuizId, newQuestionId)
      invariant total == TotalQuestions(quizzes, n)
    {
      var d := quizzes[n];
      QuizRowsStep(quizzes, n, newQuizId);
      var rows := QuestionRows(d.questions.value, newQuizId(n), n, newQuestionId);
      quizRows, questionRows := quizRows + [QuizRow(d, newQuizId(n))], questionRows + rows;
      total := total + |rows|;
      n := n + 1;
    }
  }

  lemma QuizRowsStep(quizzes: seq<SeedQuiz>, i: nat, newQuizId: nat -> Id)
    requires i < |quizzes|
    ensures QuizRows(quizzes, i + 1, newQuizId) == QuizRows(quizzes, i, newQuizId) + [QuizRow(quizzes[i], newQuizId(i))]
  {
  }

  /** `autoSeed`: seeds prayers when there are none, then quizzes when there
      are none. */
  method AutoSeed(s: Store, prayers: SeedFile<string>, quizzes: SeedFile<SeedQuiz>,
                  newQuizId: nat -> Id, newQuestionId: (nat, nat) -> Id)
    returns (r: Store)
    ensures r.users == s.users && r.attempts == s.attempts && r.answers == s.answers
    ensures |s.prayers| > 0 ==> r.prayers == s.prayers
    ensures |s.prayers| == 0 ==> r.prayers == SeedPrayers(s, prayers).prayers
    ensures |s.quizzes| > 0 ==> r.quizzes == s.quizzes && r.questions == s.questions
    ensures |s.prayers| > 0 && |s.quizzes| > 0 ==> r == s
    ensures |s.quizzes| == 0 && HasData(quizzes) ==> |r.quizzes| > 0
    ensures |s.quizzes| == 0 && !HasData(quizzes) ==> r.quizzes == s.quizzes && r.questions == s.questions
    ensures |s.quizzes| == 0 && HasData(quizzes) && ListsPresent(quizzes.list.value, |quizzes.list.value|) ==>
      var q := quizzes.list.value;
      && r.quizzes == s.quizzes + QuizRows(q, |q|, newQuizId)
      && r.questions == s.questions + QuestionRowsOf(q, |q|, newQuizId, newQuestionId)
    ensures |s.quizzes| == 0 && HasData(quizzes) && !ListsPresent(quizzes.list.value, |quizzes.list.value|) ==>
      var q, m := quizzes.list.value, |r.quizzes| - |s.quizzes| - 1;
      && 0 <= m < |q| && q[m].questions.None? && ListsPresent(q, m)
      && r.quizzes == s.quizzes + QuizRows(q, m + 1, newQuizId)
      && r.questions == s.questions + QuestionRowsOf(q, m, newQuizId, newQuestionId)
  {
    r := s;
    if |r.prayers| == 0 {
      r := SeedPrayers(r, prayers);
    }
    if |r.quizzes| == 0 {
      var logged;
      r, logged := SeedQuizzes(r, quizzes, newQuizId, newQuestionId);
    }
  }

  // ---------------------------------------------------------------- properties

  /** The logged total is the number of question rows created. */
  lemma {:induction false} QuestionRowsCount(quizzes: seq<SeedQuiz>, n: nat, newQuizId: nat -> Id, newQuestionId: (nat, nat) -> Id)
    requires ListsPresent(quizzes, n)
    ensures |QuestionRowsOf(quizzes, n, newQuizId, newQuestionId)| == TotalQuestions(quizzes, n)
  {
    if n > 0 {
      QuestionRowsCount(quizzes, n - 1, newQuizId, newQuestionId);
    }
  }

  /** Among the seeded question rows, those of quiz `i` are exactly its own
      rows, when no other seeded quiz got the same id. */
  lemma {:induction false} SeededRowsOfQuiz(quizzes: seq<SeedQuiz>, n: nat, i: nat, newQuizId: nat -> Id, newQuestionId: (nat, nat) -> Id)
    requires ListsPresent(quizzes, n)
    requires i < |quizzes| && quizzes[i].questions.Some?
    requires forall j :: 0 <= j < n && j != i ==> newQuizId(j) != newQuizId(i)
    ensures Seqs.Filter(QuestionRowsOf(quizzes, n, newQuizId, newQuestionId), (q: Question) => q.quizId == newQuizId(i))
         == if i < n then QuestionRows(quizzes[i].questions.value, newQuizId(i), i, newQuestionId) else []
  {
    var p := (q: Question) => q.quizId == newQuizId(i);
    if n > 0 {
      var k := n - 1;
      var before := QuestionRowsOf(quizzes, k, newQuizId, newQuestionId);
      var rows := QuestionRows(quizzes[k].questions.value, newQuizId(k), k, newQuestionId);
      assert QuestionRowsOf(quizzes, n, newQuizId, newQuestionId) == before + rows;
      SeededRowsOfQuiz(quizzes, k, i, newQuizId, newQuestionId);
      Seqs.FilterAppend(before, rows, p);
      if k == i {
        Seqs.FilterAll(rows, p);
      } else {
        Seqs.FilterNone(rows, p);
      }
    }
  }

  /** After seeding into a store with no questions under the new ids, the
      questions of each seeded quiz are exactly the rows built from its seed
      entry, so starting an attempt on it snapshots its seed question count. */
  lemma SeededQuestionsOf(s: Store, quizzes: seq<SeedQuiz>, i: nat, newQuizId: nat -> Id, newQuestionId: (nat, nat) -> Id)
    requires ListsPresent(quizzes, |quizzes|)
    requires i < |quizzes|
    requires forall j :: 0 <= j < |quizzes| && j != i ==> newQuizId(j) != newQuizId(i)
    requires forall k :: 0 <= k < |s.questions| ==> s.questions[k].quizId != newQuizId(i)
    ensures var seeded := s.(questions := s.questions + QuestionRowsOf(quizzes, |quizzes|, newQuizId, newQuestionId));
      && QuestionsOf(seeded, newQuizId(i)) == QuestionRows(quizzes[i].questions.value, newQuizId(i), i, newQuestionId)
      && |QuestionsOf(seeded, newQuizId(i))| == |quizzes[i].questions.value|
  {
    var p := (q: Question) => q.quizId == newQuizId(i);
    var rows := QuestionRowsOf(quizzes, |quizzes|, newQuizId, newQuestionId);
    Seqs.FilterAppend(s.questions, rows, p);
    Seqs.FilterNone(s.questions, p);
    SeededRowsOfQuiz(quizzes, |quizzes|, i, newQuizId, newQuestionId);
  }
}

=== FILE: bible_import.dfy ===
/** The one-time import of the Bible text at startup: books are upserted by
    name, their chapters created unless already present, and each found
    chapter's verses inserted in batches. The JSON file enters the model
    already read and parsed; ids the database generates are parameters.
    The unique keys the `skipDuplicates` inserts rely on, a chapter's
    `(book, number)` and a verse's `(chapter, number)`, are assumed. */
module BibleImport {
  import opened Results
  import Seqs

  type Id = string

  /** `importBatchSize`: verses per `createMany` call. */
  const ImportBatchSize: int := 2000

  datatype Book = Book(id: Id, name: string)
  datatype Chapter = Chapter(id: Id, bookId: Id, number: int)
  datatype Verse = Verse(chapterId: Id, number: int, text: string)

  datatype BibleStore = BibleStore(books: seq<Book>, chapters: seq<Chapter>, verses: seq<Verse>)

  datatype ChapterJson = ChapterJson(number: int, verses: seq<string>)
  datatype BookJson = BookJson(name: string, chapters: seq<ChapterJson>)

  /** The bible file: unreadable or not JSON, or parsed with its `books`
      list possibly missing. */
  datatype BibleFile = Unreadable | Parsed(books: Option<seq<BookJson>>)

  /** Reading or parsing the file throws, and nothing catches it. */
  datatype ImportError = FileUnreadable

  /** The per-book log line: name, chapter count of the file, verses imported. */
  datatype BookLog = BookLog(name: string, chapters: nat, verses: nat)

  // ---------------------------------------------------------------- chunkArray

  /** `chunkArray`: consecutive slices of `size` items, the last one possibly
      shorter; a size that is not positive gives the whole list as one chunk. */
  function ChunkArray<T>(items: seq<T>, size: int): (r: seq<seq<T>>)
    ensures size <= 0 ==> r == [items]
    ensures size > 0 ==> Seqs.Flatten(r) == items
    ensures size > 0 ==> forall k :: 0 <= k < |r| ==> 1 <= |r[k]| <= size
    ensures size > 0 ==> forall k :: 0 <= k < |r| - 1 ==> |r[k]| == size
    ensures size > 0 ==> (|r| == 0 <==> |items| == 0)
    decreases |items|
  {
    if size <= 0 then [items]
    else if |items| == 0 then []
    else if |items| <= size then
      assert Seqs.Flatten([items]) == items + Seqs.Flatten([]);
      [items]
    else
      var rest := ChunkArray(items[size..], size);
      assert items == items[..size] + items[size..];
      [items[..size]] + rest
  }

  /** The number of chunks is the length divided by the size, rounded up. */
  lemma ChunkCount<T>(items: seq<T>, size: int)
    requires size > 0
    ensures |ChunkArray(items, size)| == (|items| + size - 1) / size
  {
    ChunkBounds(items, size);
    CeilDiv(|items|, size, |ChunkArray(items, size)|);
  }

  /** The chunks hold all items, and one chunk fewer would not. */
  lemma {:induction false} ChunkBounds<T>(items: seq<T>, size: int)
    requires size > 0
    ensures var c := |ChunkArray(items, size)|;
      |items| <= c * size && (c > 0 ==> (c - 1) * size < |items|)
    decreases |items|
  {
    var total := |ChunkArray(items, size)|;
    if |items| > size {
      var rest := items[size..];
      ChunkBounds(rest, size);
      var c := |ChunkArray(rest, size)|;
      assert total == c + 1 && c > 0;
      BoundsStep(|rest|, size, c);
    } else if |items| > 0 {
      assert total == 1;
    }
  }

  lemma BoundsStep(n: nat, size: int, c: nat)
    requires size > 0 && c > 0
    requires n <= c * size && (c - 1) * size < n
    ensures n + size <= (c + 1) * size && ((c + 1) - 1) * size < n + size
  {
    assert (c + 1) * size == c * size + size;
    assert c * size == (c - 1) * size + size;
  }

  /** The only `c` with `(c - 1) * size < n <= c * size` is `n / size` rounded up. */
  lemma CeilDiv(n: nat, size: int, c: nat)
    requires size > 0
    requires n <= c * size
    requires c > 0 ==> (c - 1) * size < n
    ensures c == (n + size - 1) / size
  {
    var q, m := (n + size - 1) / size, (n + size - 1) % size;
    assert n + size - 1 == q * size + m && 0 <= m < size;
    if c < q {
      MulMonotone(c + 1, q, size);
    } else if c > q {
      MulMonotone(q, c - 1, size);
    }
  }

  lemma MulMonotone(a: int, b: int, n: int)
    requires a <= b && n > 0
    ensures a * n <= b * n
  {
  }

  // ---------------------------------------------------------------- verses

  /** The rows of a chapter's verses: numbered from 1 in file order, all
      under the chapter's id. */
  function VerseRows(chapterId: Id, texts: seq<string>): (r: seq<Verse>)
    ensures |r| == |texts|
    ensures forall k :: 0 <= k < |r| ==> r[k].chapterId == chapterId && r[k].number == k + 1 && r[k].text == texts[k]
  {
    seq(|texts|, k requires 0 <= k < |texts| => Verse(chapterId, k + 1, texts[k]))
  }

  predicate HasVerse(verses: seq<Verse>, chapterId: Id, number: int)
  {
    exists k :: 0 <= k < |verses| && verses[k].chapterId == chapterId && verses[k].number == number
  }

  /** `bibleVerse.createMany` with `skipDuplicates`: each row is inserted
      unless a verse with its chapter and number is already stored. */
  function InsertVerses(verses: seq<Verse>, rows: seq<Verse>): (r: seq<Verse>)
    ensures |verses| <= |r| <= |verses| + |rows|
    ensures r[..|verses|] == verses
    ensures forall k :: |verses| <= k < |r| ==> r[k] in rows
    ensures forall k :: 0 <= k < |rows| ==> HasVerse(r, rows[k].chapterId, rows[k].number)
    decreases |rows|
  {
    if |rows| == 0 then verses
    else
      var next := if HasVerse(verses, rows[0].chapterId, rows[0].number) then verses else verses + [rows[0]];
      var r := InsertVerses(next, rows[1..]);
      InsertVersesStep(verses, rows, next, r);
      r
  }

  /** One row of `InsertVerses`: the row is stored afterwards, and what the
      rest of the rows add comes from them. */
  lemma InsertVersesStep(verses: seq<Verse>, rows: seq<Verse>, next: seq<Verse>, r: seq<Verse>)
    requires |rows| > 0
    requires next == if HasVerse(verses, rows[0].chapterId, rows[0].number) then verses else verses + [rows[0]]
    requires |next| <= |r| && r[..|next|] == next
    requires forall k :: |next| <= k < |r| ==> r[k] in rows[1..]
    requires forall k :: 0 <= k < |rows[1..]| ==> HasVerse(r, rows[1..][k].chapterId, rows[1..][k].number)
    ensures forall k :: |verses| <= k < |r| ==> r[k] in rows
    ensures forall k :: 0 <= k < |rows| ==> HasVerse(r, rows[k].chapterId, rows[k].number)
  {
    forall k | |verses| <= k < |r|
      ensures r[k] in rows
    {
      if k < |next| {
        assert r[k] == next[k] == rows[0];
      } else {
        assert r[k] in rows[1..];
      }
    }
    var c, n := rows[0].chapterId, rows[0].number;
    if HasVerse(verses, c, n) {
      var j :| 0 <= j < |verses| && verses[j].chapterId == c && verses[j].number == n;
      assert r[j] == next[j];
    } else {
      assert r[|verses|] == next[|verses|];
    }
    assert HasVerse(r, c, n);
    forall k | 0 <= k < |rows|
      ensures HasVerse(r, rows[k].chapterId, rows[k].number)
    {
      if k > 0 {
        assert rows[k] == rows[1..][k - 1];
      }
    }
  }

  /** Inserting two lists one after the other is inserting their concatenation. */
  lemma {:induction false} InsertVersesAppend(verses: seq<Verse>, a: seq<Verse>, b: seq<Verse>)
    ensures InsertVerses(InsertVerses(verses, a), b) == InsertVerses(verses, a + b)
    decreases |a|
  {
    if |a| > 0 {
      assert (a + b)[1..] == a[1..] + b;
      var next := if HasVerse(verses, a[0].chapterId, a[0].number) then verses else verses + [a[0]];
      InsertVersesAppend(next, a[1..], b);
    } else {
      assert a + b == b;
    }
  }

  /** One `createMany` per batch, in order. */
  function InsertBatches(verses: seq<Verse>, batches: seq<seq<Verse>>): seq<Verse>
    decreases |batches|
  {
    if |batches| == 0 then verses else InsertBatches(InsertVerses(verses, batches[0]), batches[1..])
  }

  /** Batching does not change what is inserted. */
  lemma {:induction false} BatchesAreFlat(verses: seq<Verse>, batches: seq<seq<Verse>>)
    ensures InsertBatches(verses, batches) == InsertVerses(verses, Seqs.Flatten(batches))
    decreases |batches|
  {
    if |batches| > 0 {
      BatchesAreFlat(InsertVerses(verses, batches[0]), batches[1..]);
      InsertVersesAppend(verses, batches[0], Seqs.Flatten(batches[1..]));
    }
  }

  /** Inserting into a table with no verse of the chapter stores all its rows. */
  lemma {:induction false} InsertFreshChapter(verses: seq<Verse>, chapterId: Id, texts: seq<string>)
    requires forall k :: 0 <= k < |verses| ==> verses[k].chapterId != chapterId
    ensures InsertVerses(verses, VerseRows(chapterId, texts)) == verses + VerseRows(chapterId, texts)
  {
    InsertFreshRows(verses, VerseRows(chapterId, texts), 1, chapterId);
  }

  lemma {:induction false} InsertFreshRows(verses: seq<Verse>, rows: seq<Verse>, first: int, chapterId: Id)
    requires forall k :: 0 <= k < |verses| ==> verses[k].chapterId != chapterId || verses[k].number < first
    requires forall k :: 0 <= k < |rows| ==> rows[k].chapterId == chapterId && rows[k].number == first + k
    ensures InsertVerses(verses, rows) == verses + rows
    decreases |rows|
  {
    if |rows| > 0 {
      assert !HasVerse(verses, rows[0].chapterId, rows[0].number);
      var next, rest := verses + [rows[0]], rows[1..];
      InsertFreshRows(next, rest, first + 1, chapterId);
      SnocHead(verses, rows);
    }
  }

  lemma SnocHead<T>(xs: seq<T>, ys: seq<T>)
    requires |ys| > 0
    ensures xs + [ys[0]] + ys[1..] == xs + ys
  {
    assert ys == [ys[0]] + ys[1..];
  }

  // ---------------------------------------------------------------- books and chapters

  /** The stored book with a given name. */
  function FindBook(books: seq<Book>, name: string): (r: Option<Book>)
    ensures r.Some? ==> r.value in books && r.value.name == name
    ensures r.None? <==> forall k :: 0 <= k < |books| ==> books[k].name != name
  {
    Seqs.FindFirst(books, (x: Book) => x.name == name)
  }

  /** `bibleBook.upsert` by name: the stored book of that name, or a new one. */
  function UpsertBook(b: BibleStore, name: string, newId: Id): (r: (BibleStore, Id))
    ensures r.0 == b.(books := r.0.books)
    ensures FindBook(b.books, name).Some? ==> r.0 == b && r.1 == FindBook(b.books, name).value.id
    ensures FindBook(b.books, name).None? ==> r.0.books == b.books + [Book(newId, name)] && r.1 == newId
    ensures FindBook(r.0.books, name).Some?
  {
    match FindBook(b.books, name)
    case Some(book) => (b, book.id)
    case None =>
      var books := b.books + [Book(newId, name)];
      assert books[|b.books|].name == name;
      (b.(books := books), newId)
  }

  /** The stored chapter of a book with a given number (`chapterIdByNumber`). */
  function FindChapter(chapters: seq<Chapter>, bookId: Id, number: int): (r: Option<Chapter>)
    ensures r.Some? ==> r.value in chapters && r.value.bookId == bookId && r.value.number == number
    ensures r.None? <==> forall k :: 0 <= k < |chapters| ==> chapters[k].bookId != bookId || chapters[k].number != number
  {
    Seqs.FindFirst(chapters, (c: Chapter) => c.bookId == bookId && c.number == number)
  }

  /** At most one chapter per book and number. */
  predicate ChaptersUnique(chapters: seq<Chapter>)
  {
    forall i, j :: 0 <= i < j < |chapters| ==>
      chapters[i].bookId != chapters[j].bookId || chapters[i].number != chapters[j].number
  }

  /** One chapter row of `bibleChapter.createMany` with `skipDuplicates`:
      created unless the book already has a chapter with that number. */
  function InsertChapter(chapters: seq<Chapter>, c: Chapter): (r: seq<Chapter>)
    ensures |r| >= |chapters| && r[..|chapters|] == chapters
    ensures FindChapter(chapters, c.bookId, c.number).Some? ==> r == chapters
    ensures FindChapter(chapters, c.bookId, c.number).None? ==> r == chapters + [c]
    ensures FindChapter(r, c.bookId, c.number).Some?
    ensures ChaptersUnique(chapters) ==> ChaptersUnique(r)
  {
    if FindChapter(chapters, c.bookId, c.number).Some? then chapters
    else
      assert (chapters + [c])[|chapters|] == c;
      chapters + [c]
  }

  /** A chapter found in a table is still found once rows are appended. */
  lemma FindChapterPrefix(xs: seq<Chapter>, ys: seq<Chapter>, bookId: Id, number: int)
    requires FindChapter(xs, bookId, number).Some?
    ensures FindChapter(xs + ys, bookId, number).Some?
  {
    var c := FindChapter(xs, bookId, number).value;
    var i :| 0 <= i < |xs| && xs[i] == c;
    assert (xs + ys)[i] == c;
  }

  lemma PrefixOfPrefix<T>(a: seq<T>, b: seq<T>, c: seq<T>)
    requires |a| <= |b| <= |c| && b[..|a|] == a && c[..|b|] == b
    ensures c[..|a|] == a && c == b + c[|b|..]
  {
    assert c[..|a|] == c[..|b|][..|a|];
  }

  /** `bibleChapter.createMany` with `skipDuplicates`: the book's chapters
      from the `k`-th on, in file order, each created unless already stored.
      The stored chapters stay in front. */
  function CreateChapters(chapters: seq<Chapter>, bookId: Id, cs: seq<ChapterJson>, bookIndex: nat, k: nat,
                          newChapterId: (nat, nat) -> Id): (r: seq<Chapter>)
    requires k <= |cs|
    ensures |r| >= |chapters| && r[..|chapters|] == chapters
    decreases |cs| - k
  {
    if k == |cs| then chapters
    else
      var next := InsertChapter(chapters, Chapter(newChapterId(bookIndex, k), bookId, cs[k].number));
      var r := CreateChapters(next, bookId, cs, bookIndex, k + 1, newChapterId);
      PrefixOfPrefix(chapters, next, r);
      r
  }

  /** After the book's chapters are created, every chapter number of the
      file from the `k`-th on has a stored chapter of the book. */
  lemma {:induction false} CreateChaptersFindsAll(chapters: seq<Chapter>, bookId: Id, cs: seq<ChapterJson>, bookIndex: nat,
                                                  k: nat, newChapterId: (nat, nat) -> Id)
    requires k <= |cs|
    ensures forall j :: k <= j < |cs| ==>
      FindChapter(CreateChapters(chapters, bookId, cs, bookIndex, k, newChapterId), bookId, cs[j].number).Some?
    decreases |cs| - k
  {
    if k < |cs| {
      var next := InsertChapter(chapters, Chapter(newChapterId(bookIndex, k), bookId, cs[k].number));
      var r := CreateChapters(next, bookId, cs, bookIndex, k + 1, newChapterId);
      assert CreateChapters(chapters, bookId, cs, bookIndex, k, newChapterId) == r;
      CreateChaptersFindsAll(next, bookId, cs, bookIndex, k + 1, newChapterId);
      var added := r[|next|..];
      assert r == next + added by {
        PrefixOfPrefix(next, next, r);
      }
      FindChapterPrefix(next, added, bookId, cs[k].number);
      var here := FindChapter(r, bookId, cs[k].number);
      assert here.Some?;
      forall j | k <= j < |cs|
        ensures FindChapter(r, bookId, cs[j].number).Some?
      {
        if j == k {
          assert here.Some?;
        }
      }
    }
  }

  /** Creating a book's chapters keeps at most one chapter per book and number. */
  lemma {:induction false} CreateChaptersUnique(chapters: seq<Chapter>, bookId: Id, cs: seq<ChapterJson>, bookIndex: nat, k: nat,
                                                newChapterId: (nat, nat) -> Id)
    requires k <= |cs|
    requires ChaptersUnique(chapters)
    ensures ChaptersUnique(CreateChapters(chapters, bookId, cs, bookIndex, k, newChapterId))
    decreases |cs| - k
  {
    if k < |cs| {
      var next := InsertChapter(chapters, Chapter(newChapterId(bookIndex, k), bookId, cs[k].number));
      CreateChaptersUnique(next, bookId, cs, bookIndex, k + 1, newChapterId);
    }
  }

  /** The verses of one chapter of the file: skipped when no stored chapter
      matches or its id is empty (`!chapterId`), otherwise numbered and
      inserted in batches. Returns the verses counted towards the log. */
  function ImportChapter(b: BibleStore, bookId: Id, c: ChapterJson): (r: (BibleStore, nat))
    ensures r.0 == b.(verses := r.0.verses)
    ensures |r.0.verses| >= |b.verses| && r.0.verses[..|b.verses|] == b.verses
    ensures FindChapter(b.chapters, bookId, c.number).None? || FindChapter(b.chapters, bookId, c.number).value.id == "" ==>
      r == (b, 0)
    ensures FindChapter(b.chapters, bookId, c.number).Some? && FindChapter(b.chapters, bookId, c.number).value.id != "" ==>
      var id := FindChapter(b.chapters, bookId, c.number).value.id;
      r.1 == |c.verses| && r.0.verses == InsertVerses(b.verses, VerseRows(id, c.verses))
  {
    match FindChapter(b.chapters, bookId, c.number)
    case None => (b, 0)
    case Some(chapter) =>
      if chapter.id == "" then (b, 0)
      else
        var rows := VerseRows(chapter.id, c.verses);
        var batches := ChunkArray(rows, ImportBatchSize);
        BatchesAreFlat(b.verses, batches);
        (b.(verses := InsertBatches(b.verses, batches)), |rows|)
  }

  /** A chapter of the file whose verses are imported: a stored chapter
      matches and its id is not empty. */
  predicate Found(chapters: seq<Chapter>, bookId: Id, number: int)
  {
    FindChapter(chapters, bookId, number).Some? && FindChapter(chapters, bookId, number).value.id != ""
  }

  /** The verses of the file's chapters that are found. */
  function FoundVerses(chapters: seq<Chapter>, bookId: Id, cs: seq<ChapterJson>): nat
  {
    if |cs| == 0 then 0
    else (if Found(chapters, bookId, cs[0].number) then |cs[0].verses| else 0) + FoundVerses(chapters, bookId, cs[1..])
  }

  /** All verses of the file's chapters. */
  function AllVerses(cs: seq<ChapterJson>): nat
  {
    if |cs| == 0 then 0 else |cs[0].verses| + AllVerses(cs[1..])
  }

  /** The inner loop of a book: each chapter's verses in turn. The total
      (`totalVerses`) counts the verses of found chapters only. */
  function ImportChapters(b: BibleStore, bookId: Id, cs: seq<ChapterJson>): (r: (BibleStore, nat))
    ensures r.0 == b.(verses := r.0.verses)
    ensures |r.0.verses| >= |b.verses| && r.0.verses[..|b.verses|] == b.verses
    ensures r.1 == FoundVerses(b.chapters, bookId, cs)
    ensures r.1 <= AllVerses(cs)
    decreases |cs|
  {
    if |cs| == 0 then (b, 0)
    else
      var first := ImportChapter(b, bookId, cs[0]);
      var rest := ImportChapters(first.0, bookId, cs[1..]);
      PrefixOfPrefix(b.verses, first.0.verses, rest.0.verses);
      (rest.0, first.1 + rest.1)
  }

  /** When every stored chapter of the book has a non-empty id and every
      chapter of the file is stored, no chapter is skipped. */
  lemma {:induction false} NoneSkipped(chapters: seq<Chapter>, bookId: Id, cs: seq<ChapterJson>)
    requires forall k :: 0 <= k < |chapters| ==> chapters[k].id != ""
    requires forall j :: 0 <= j < |cs| ==> FindChapter(chapters, bookId, cs[j].number).Some?
    ensures FoundVerses(chapters, bookId, cs) == AllVerses(cs)
  {
    if |cs| > 0 {
      var c := FindChapter(chapters, bookId, cs[0].number).value;
      var i :| 0 <= i < |chapters| && chapters[i] == c;
      NoneSkipped(chapters, bookId, cs[1..]);
    }
  }

  /** The stored book of a name and, for a new name, the id it is created
      with. */
  function BookIdFor(b: BibleStore, name: string, newId: Id): Id
  {
    UpsertBook(b, name, newId).1
  }

  /** The chapter table after a book's chapters are created. */
  function BookChapters(b: BibleStore, bookIndex: nat, book: BookJson, newBookId: nat -> Id,
                        newChapterId: (nat, nat) -> Id): seq<Chapter>
  {
    var bookId := BookIdFor(b, book.name, newBookId(bookIndex));
    if |book.chapters| > 0 then CreateChapters(b.chapters, bookId, book.chapters, bookIndex, 0, newChapterId)
    else b.chapters
  }

  /** One book of the file: upsert, create its chapters, import their
      verses, and the log line. */
  function ImportBook(b: BibleStore, bookIndex: nat, book: BookJson, newBookId: nat -> Id,
                      newChapterId: (nat, nat) -> Id): (r: (BibleStore, BookLog))
    ensures r.0.chapters == BookChapters(b, bookIndex, book, newBookId, newChapterId)
    ensures |r.0.chapters| >= |b.chapters| && r.0.chapters[..|b.chapters|] == b.chapters
    ensures |r.0.verses| >= |b.verses| && r.0.verses[..|b.verses|] == b.verses
    ensures r.1 == BookLog(book.name, |book.chapters|,
      FoundVerses(r.0.chapters, BookIdFor(b, book.name, newBookId(bookIndex)), book.chapters))
  {
    var upserted := UpsertBook(b, book.name, newBookId(bookIndex));
    var b1 := upserted.0.(chapters := BookChapters(b, bookIndex, book, newBookId, newChapterId));
    var imported := ImportChapters(b1, upserted.1, book.chapters);
    (imported.0, BookLog(book.name, |book.chapters|, imported.1))
  }

  /** After a book is imported, the book is stored under its name and every
      chapter number of the file has a stored chapter of that book. */
  lemma ImportBookStoresChapters(b: BibleStore, bookIndex: nat, book: BookJson, newBookId: nat -> Id,
                                 newChapterId: (nat, nat) -> Id)
    ensures var r := ImportBook(b, bookIndex, book, newBookId, newChapterId).0;
      && FindBook(r.books, book.name).Some?
      && forall j :: 0 <= j < |book.chapters| ==>
           FindChapter(r.chapters, BookIdFor(b, book.name, newBookId(bookIndex)), book.chapters[j].number).Some?
  {
    var r := ImportBook(b, bookIndex, book, newBookId, newChapterId).0;
    var upserted := UpsertBook(b, book.name, newBookId(bookIndex));
    assert r.books == upserted.0.books;
    if |book.chapters| > 0 {
      CreateChaptersFindsAll(b.chapters, upserted.1, book.chapters, bookIndex, 0, newChapterId);
    }
  }

  /** The outer loop: the books of the file from the `k`-th on, in order. */
  function ImportBooks(b: BibleStore, books: seq<BookJson>, k: nat, newBookId: nat -> Id,
                       newChapterId: (nat, nat) -> Id): (r: (BibleStore, seq<BookLog>))
    requires k <= |books|
    ensures |r.1| == |books| - k
    ensures |r.0.verses| >= |b.verses| && r.0.verses[..|b.verses|] == b.verses
    ensures |r.0.chapters| >= |b.chapters| && r.0.chapters[..|b.chapters|] == b.chapters
    decreases |books| - k
  {
    if k == |books| then (b, [])
    else
      var first := ImportBook(b, k, books[k], newBookId, newChapterId);
      var rest := ImportBooks(first.0, books, k + 1, newBookId, newChapterId);
      PrefixOfPrefix(b.verses, first.0.verses, rest.0.verses);
      PrefixOfPrefix(b.chapters, first.0.chapters, rest.0.chapters);
      (rest.0, [first.1] + rest.1)
  }

  /** `importBibleIfNeeded`: imports only into an empty verse table, and only
      when the file has books; an unreadable file is an error. */
  function ImportBibleIfNeeded(b: BibleStore, file: BibleFile, newBookId: nat -> Id,
                               newChapterId: (nat, nat) -> Id): (r: Result<(BibleStore, seq<BookLog>), ImportError>)
    ensures |b.verses| > 0 ==> r == Success((b, []))
    ensures |b.verses| == 0 && file.Unreadable? ==> r == Failure(FileUnreadable)
    ensures |b.verses| == 0 && file.Parsed? && (file.books.None? || |file.books.value| == 0) ==> r == Success((b, []))
    ensures r.Failure? <==> |b.verses| == 0 && file.Unreadable?
    ensures r.Success? && |b.verses| == 0 && file.Parsed? && file.books.Some? ==>
      && |r.value.1| == |file.books.value|
      && |r.value.0.chapters| >= |b.chapters| && r.value.0.chapters[..|b.chapters|] == b.chapters
  {
    if |b.verses| > 0 then Success((b, []))
    else match file
      case Unreadable => Failure(FileUnreadable)
      case Parsed(books) =>
        if books.None? || |books.value| == 0 then Success((b, []))
        else Success(ImportBooks(b, books.value, 0, newBookId, newChapterId))
  }
}

=== FILE: json_strings.dfy ===
/** The storage format of a question's `options` column: a JSON array of
    strings, written by `JSON.stringify` and read back by `JSON.parse`.

    The encoder follows the serialisation of ECMA-262 (QuoteJSONString):
    no whitespace, `"` and `\` escaped with a backslash, the five named
    control escapes, every other control character below U+0020 as a
    lower-case `\u00xx`, and everything else written literally. The decoder
    accepts the grammar of RFC 8259 restricted to an array of strings:
    section 2 (insignificant whitespace), section 5 (arrays) and section 7
    (strings: the two-character escapes, `\uXXXX` in either case, and
    surrogate pairs written as two `\u` escapes). */
module JsonStrings {
  import opened Results

  datatype DecodeError =
    | ExpectedArray           // the text does not start with `[`
    | ExpectedString          // an array element is not a string
    | ExpectedCommaOrBracket  // an element is followed by something else
    | UnterminatedString      // the input ends inside a string
    | ControlCharacter        // a raw character below U+0020 inside a string
    | BadEscape               // a backslash followed by an unknown letter
    | BadUnicodeEscape        // `\u` not followed by four hex digits
    | LoneSurrogate           // a `\u` surrogate escape that is not part of a pair
    | TrailingData            // non-whitespace after the closing `]`

  /** Lower-case hexadecimal digits, as `JSON.stringify` writes them. */
  const HexDigits: string := "0123456789abcdef"

  function HexDigit(n: nat): char
    requires n < 16
  {
    HexDigits[n]
  }

  /** The value of one hexadecimal digit of either case. */
  function HexValue(c: char): (r: Option<nat>)
    ensures r.Some? ==> r.value < 16
  {
    if '0' <= c <= '9' then Some(c as int - '0' as int)
    else if 'a' <= c <= 'f' then Some(c as int - 'a' as int + 10)
    else if 'A' <= c <= 'F' then Some(c as int - 'A' as int + 10)
    else None
  }

  lemma HexValueOfDigit(n: nat)
    requires n < 16
    ensures HexValue(HexDigit(n)) == Some(n)
  {
  }

  // ---------------------------------------------------------------- encoder

  /** How one character of a string is written inside the quotes. */
  function EscapeChar(c: char): string
  {
    if c == '"' then "\\\""
    else if c == '\\' then "\\\\"
    else if c == '\U{8}' then "\\b"
    else if c == '\U{C}' then "\\f"
    else if c == '\n' then "\\n"
    else if c == '\r' then "\\r"
    else if c == '\t' then "\\t"
    else if c < ' ' then "\\u00" + [HexDigit(c as int / 16), HexDigit(c as int % 16)]
    else [c]
  }

  function EscapeString(s: string): string
  {
    if |s| == 0 then [] else EscapeChar(s[0]) + EscapeString(s[1..])
  }

  /** A string literal: the escaped characters between double quotes. */
  function EncodeString(s: string): string
  {
    "\"" + EscapeString(s) + "\""
  }

  /** The comma-separated elements of an array, without brackets. */
  function EncodeElements(xs: seq<string>): string
  {
    if |xs| == 0 then ""
    else if |xs| == 1 then EncodeString(xs[0])
    else EncodeString(xs[0]) + "," + EncodeElements(xs[1..])
  }

  /** `JSON.stringify(options)` for an array of strings. */
  function Encode(xs: seq<string>): string
  {
    "[" + EncodeElements(xs) + "]"
  }

  // ---------------------------------------------------------------- decoder

  predicate IsWhitespace(c: char)
  {
    c == ' ' || c == '\t' || c == '\n' || c == '\r'
  }

  /** Drops insignificant whitespace from the front of the input. */
  function SkipWhitespace(s: string): (r: string)
    ensures |r| <= |s| && r == s[|s| - |r|..]
    ensures |r| == 0 || !IsWhitespace(r[0])
  {
    if |s| > 0 && IsWhitespace(s[0]) then SkipWhitespace(s[1..]) else s
  }

  /** The value of exactly four hexadecimal digits. */
  function Hex4(s: string): (r: Result<nat, DecodeError>)
    requires |s| == 4
    ensures r.Success? ==> r.value < 0x1_0000
  {
    match (HexValue(s[0]), HexValue(s[1]), HexValue(s[2]), HexValue(s[3]))
    case (Some(a), Some(b), Some(c), Some(d)) => Success(((a * 16 + b) * 16 + c) * 16 + d)
    case _ => Failure(BadUnicodeEscape)
  }

  /** One escape sequence at the head of `s`: the character it denotes and
      how many input characters it occupies. */
  function ParseEscape(s: string): (r: Result<(char, nat), DecodeError>)
    requires |s| > 0 && s[0] == '\\'
    ensures r.Success? ==> 2 <= r.value.1 <= |s|
  {
    if |s| < 2 then Failure(UnterminatedString)
    else if s[1] == '"' then Success(('"', 2))
    else if s[1] == '\\' then Success(('\\', 2))
    else if s[1] == '/' then Success(('/', 2))
    else if s[1] == 'b' then Success(('\U{8}', 2))
    else if s[1] == 'f' then Success(('\U{C}', 2))
    else if s[1] == 'n' then Success(('\n', 2))
    else if s[1] == 'r' then Success(('\r', 2))
    else if s[1] == 't' then Success(('\t', 2))
    else if s[1] != 'u' then Failure(BadEscape)
    else if |s| < 6 then Failure(BadUnicodeEscape)
    else
      var hi :- Hex4(s[2..6]);
      if hi < 0xD800 || 0xDFFF < hi then Success((hi as char, 6))
      else if 0xDC00 <= hi then Failure(LoneSurrogate)
      else if |s| < 12 || s[6] != '\\' || s[7] != 'u' then Failure(LoneSurrogate)
      else
        var lo :- Hex4(s[8..12]);
        if lo < 0xDC00 || 0xDFFF < lo then Failure(LoneSurrogate)
        else Success(((0x1_0000 + (hi - 0xD800) * 0x400 + (lo - 0xDC00)) as char, 12))
  }

  /** The characters of a string literal whose opening quote has been read:
      its value and the input left after the closing quote. */
  function ParseStringBody(s: string): (r: Result<(string, string), DecodeError>)
    ensures r.Success? ==> |r.value.1| < |s|
    decreases |s|
  {
    if |s| == 0 then Failure(UnterminatedString)
    else if s[0] == '"' then Success(([], s[1..]))
    else if s[0] == '\\' then
      var e :- ParseEscape(s);
      var tail :- ParseStringBody(s[e.1..]);
      Success(([e.0] + tail.0, tail.1))
    else if s[0] < ' ' then Failure(ControlCharacter)
    else
      var tail :- ParseStringBody(s[1..]);
      Success(([s[0]] + tail.0, tail.1))
  }

  /** One or more string elements followed by the closing `]`: the values and
      the input left after the bracket. */
  function ParseElements(s: string): (r: Result<(seq<string>, string), DecodeError>)
    ensures r.Success? ==> |r.value.1| < |s|
    decreases |s|
  {
    var s1 := SkipWhitespace(s);
    if |s1| == 0 || s1[0] != '"' then Failure(ExpectedString)
    else
      var str :- ParseStringBody(s1[1..]);
      var s2 := SkipWhitespace(str.1);
      if |s2| > 0 && s2[0] == ',' then
        var more :- ParseElements(s2[1..]);
        Success(([str.0] + more.0, more.1))
      else if |s2| > 0 && s2[0] == ']' then Success(([str.0], s2[1..]))
      else Failure(ExpectedCommaOrBracket)
  }

  /** `JSON.parse(options)` where the stored text must be an array of strings;
      leading whitespace is skipped one character at a time. */
  function Decode(s: string): Result<seq<string>, DecodeError>
    decreases |s|
  {
    if |s| > 0 && IsWhitespace(s[0]) then Decode(s[1..])
    else if |s| == 0 || s[0] != '[' then Failure(ExpectedArray)
    else
      var s2 := SkipWhitespace(s[1..]);
      var elements :-
        if |s2| > 0 && s2[0] == ']' then Success(([], s2[1..])) else ParseElements(s2);
      if |SkipWhitespace(elements.1)| == 0 then Success(elements.0) else Failure(TrailingData)
  }

  // ---------------------------------------------------------------- round trip

  /** One escaped character, followed by anything, decodes to that character. */
  lemma ParseEscapedChar(c: char, t: string)
    ensures ParseStringBody(EscapeChar(c) + t) ==
      (match ParseStringBody(t)
       case Success(v) => Success(([c] + v.0, v.1))
       case Failure(e) => Failure(e))
  {
    if c == '"' || c == '\\' || c == '\U{8}' || c == '\U{C}' || c == '\n' || c == '\r' || c == '\t' {
      ParseNamedEscape(c, t);
    } else if c < ' ' {
      ParseControlEscape(c, t);
    } else {
      ParseLiteralChar(c, t);
    }
  }

  /** The two-character escapes. */
  lemma ParseNamedEscape(c: char, t: string)
    requires c == '"' || c == '\\' || c == '\U{8}' || c == '\U{C}' || c == '\n' || c == '\r' || c == '\t'
    ensures ParseStringBody(EscapeChar(c) + t) ==
      (match ParseStringBody(t)
       case Success(v) => Success(([c] + v.0, v.1))
       case Failure(e) => Failure(e))
  {
    var s := EscapeChar(c) + t;
    assert |EscapeChar(c)| == 2 && s[0] == '\\';
    assert ParseEscape(s) == Success((c, 2));
    assert s[2..] == t;
  }

  /** A control character written as `\u00xx`. */
  lemma ParseControlEscape(c: char, t: string)
    requires c < ' ' && c != '\U{8}' && c != '\U{C}' && c != '\n' && c != '\r' && c != '\t'
    ensures ParseStringBody(EscapeChar(c) + t) ==
      (match ParseStringBody(t)
       case Success(v) => Success(([c] + v.0, v.1))
       case Failure(e) => Failure(e))
  {
    var s := EscapeChar(c) + t;
    ControlEscapeValue(c, t);
    assert s[0] == '\\';
  }

  /** The six characters of `\u00xx` denote the control character. */
  lemma ControlEscapeValue(c: char, t: string)
    requires c < ' ' && c != '\U{8}' && c != '\U{C}' && c != '\n' && c != '\r' && c != '\t'
    ensures |EscapeChar(c) + t| >= 6 && (EscapeChar(c) + t)[0] == '\\'
    ensures ParseEscape(EscapeChar(c) + t) == Success((c, 6))
    ensures (EscapeChar(c) + t)[6..] == t
  {
    var s := EscapeChar(c) + t;
    var n := c as int;
    assert s[..6] == "\\u00" + [HexDigit(n / 16), HexDigit(n % 16)];
    assert s[2..6] == ['0', '0', HexDigit(n / 16), HexDigit(n % 16)];
    Hex4OfByte(n / 16, n % 16);
  }

  lemma Hex4OfByte(hi: nat, lo: nat)
    requires hi < 16 && lo < 16
    ensures Hex4(['0', '0', HexDigit(hi), HexDigit(lo)]) == Success(hi * 16 + lo)
  {
    HexValueOfDigit(hi);
    HexValueOfDigit(lo);
  }

  /** A character written as itself. */
  lemma ParseLiteralChar(c: char, t: string)
    requires ' ' <= c && c != '"' && c != '\\'
    ensures ParseStringBody(EscapeChar(c) + t) ==
      (match ParseStringBody(t)
       case Success(v) => Success(([c] + v.0, v.1))
       case Failure(e) => Failure(e))
  {
    var s := EscapeChar(c) + t;
    assert s == [c] + t;
    assert s[1..] == t;
  }

  lemma {:induction false} StringBodyRoundTrip(x: string, rest: string)
    ensures ParseStringBody(EscapeString(x) + "\"" + rest) == Success((x, rest))
  {
    if |x| == 0 {
      assert EscapeString(x) + "\"" + rest == "\"" + rest;
    } else {
      var t := EscapeString(x[1..]) + "\"" + rest;
      assert EscapeString(x) + "\"" + rest == EscapeChar(x[0]) + t;
      StringBodyRoundTrip(x[1..], rest);
      ParseEscapedChar(x[0], t);
      assert [x[0]] + x[1..] == x;
    }
  }

  lemma SkipWhitespaceNoop(s: string)
    requires |s| > 0 && !IsWhitespace(s[0])
    ensures SkipWhitespace(s) == s
  {
  }

  lemma {:induction false} LiteralShape(x: string, t: string)
    ensures EncodeString(x) + t == "\"" + (EscapeString(x) + "\"" + t)
  {
    Regroup("\"", EscapeString(x), "\"", t);
  }

  lemma Regroup<T>(a: seq<T>, b: seq<T>, c: seq<T>, d: seq<T>)
    ensures a + b + c + d == a + (b + c + d)
  {
  }

  lemma Regroup5<T>(a: seq<T>, b: seq<T>, c: seq<T>, d: seq<T>, e: seq<T>)
    ensures a + b + c + d + e == a + (b + (c + d + e))
  {
  }

  /** A single element followed by `]`: its literal, then the bracket. */
  lemma {:induction false} LastShape(xs: seq<string>, rest: string)
    requires |xs| == 1
    ensures EncodeElements(xs) + "]" + rest == "\"" + (EscapeString(xs[0]) + "\"" + ("]" + rest))
  {
    assert EncodeElements(xs) == EncodeString(xs[0]);
    LiteralShape(xs[0], "]" + rest);
  }

  /** Several elements followed by `]`: the first literal, a comma, the rest. */
  lemma {:induction false} ConsShape(xs: seq<string>, rest: string)
    requires |xs| > 1
    ensures EncodeElements(xs) + "]" + rest ==
      "\"" + (EscapeString(xs[0]) + "\"" + ("," + (EncodeElements(xs[1..]) + "]" + rest)))
  {
    var e := EncodeElements(xs[1..]);
    assert EncodeElements(xs) == EncodeString(xs[0]) + "," + e;
    Regroup5(EncodeString(xs[0]), ",", e, "]", rest);
    LiteralShape(xs[0], "," + (e + "]" + rest));
  }

  /** How `ParseElements` proceeds once the first element has been read. */
  lemma ParseElementsStep(s: string, x: string, after: string)
    requires |s| > 0 && s[0] == '"'
    requires ParseStringBody(s[1..]) == Success((x, after))
    requires |after| > 0 && !IsWhitespace(after[0])
    ensures after[0] == ']' ==> ParseElements(s) == Success(([x], after[1..]))
    ensures after[0] == ',' ==>
      ParseElements(s) ==
        match ParseElements(after[1..])
        case Success(m) => Success(([x] + m.0, m.1))
        case Failure(e) => Failure(e)
  {
    SkipWhitespaceNoop(s);
    SkipWhitespaceNoop(after);
  }

  lemma DropQuote(e: string, after: string)
    ensures ("\"" + (e + "\"" + after))[1..] == e + "\"" + after
  {
  }

  lemma HeadAndTail(c: char, t: string)
    ensures |[c] + t| > 0 && ([c] + t)[0] == c && ([c] + t)[1..] == t
  {
  }

  /** The literal of the last element, then `]`, parses to that element. */
  lemma ParseLast(x: string, rest: string)
    ensures ParseElements("\"" + (EscapeString(x) + "\"" + ("]" + rest))) == Success(([x], rest))
  {
    var after := "]" + rest;
    var s := "\"" + (EscapeString(x) + "\"" + after);
    DropQuote(EscapeString(x), after);
    StringBodyRoundTrip(x, after);
    HeadAndTail(']', rest);
    ParseElementsStep(s, x, after);
  }

  /** The literal of an element, then `,` and elements that parse, parses to
      the element followed by those. */
  lemma ParseCons(x: string, t: string, more: seq<string>, rest: string)
    requires ParseElements(t) == Success((more, rest))
    ensures ParseElements("\"" + (EscapeString(x) + "\"" + ("," + t))) == Success(([x] + more, rest))
  {
    var after := "," + t;
    var s := "\"" + (EscapeString(x) + "\"" + after);
    DropQuote(EscapeString(x), after);
    StringBodyRoundTrip(x, after);
    HeadAndTail(',', t);
    ParseElementsStep(s, x, after);
  }

  /** The parse of several elements, given the parse of all but the first. */
  lemma ConsRoundTrip(xs: seq<string>, rest: string)
    requires |xs| > 1
    requires ParseElements(EncodeElements(xs[1..]) + "]" + rest) == Success((xs[1..], rest))
    ensures ParseElements(EncodeElements(xs) + "]" + rest) == Success((xs, rest))
  {
    var t := EncodeElements(xs[1..]) + "]" + rest;
    var s := "\"" + (EscapeString(xs[0]) + "\"" + ("," + t));
    ConsShape(xs, rest);
    ParseCons(xs[0], t, xs[1..], rest);
    HeadAndRest(xs);
  }

  lemma HeadAndRest<T>(xs: seq<T>)
    requires |xs| > 0
    ensures [xs[0]] + xs[1..] == xs
  {
  }

  /** The parse of a single element. */
  lemma LastRoundTrip(xs: seq<string>, rest: string)
    requires |xs| == 1
    ensures ParseElements(EncodeElements(xs) + "]" + rest) == Success((xs, rest))
  {
    var s := "\"" + (EscapeString(xs[0]) + "\"" + ("]" + rest));
    LastShape(xs, rest);
    assert EncodeElements(xs) + "]" + rest == s;
    ParseLast(xs[0], rest);
    assert [xs[0]] == xs;
  }

  lemma {:induction false} ElementsRoundTrip(xs: seq<string>, rest: string)
    requires |xs| > 0
    ensures ParseElements(EncodeElements(xs) + "]" + rest) == Success((xs, rest))
    decreases |xs|
  {
    if |xs| > 1 {
      ElementsRoundTrip(xs[1..], rest);
      ConsRoundTrip(xs, rest);
    } else {
      LastRoundTrip(xs, rest);
    }
  }

  /** An opening bracket followed by elements that parse to the end. */
  lemma DecodeBracketed(s: string, xs: seq<string>)
    requires |s| > 1 && s[0] == '[' && s[1] == '"'
    requires ParseElements(s[1..]) == Success((xs, ""))
    ensures Decode(s) == Success(xs)
  {
    SkipWhitespaceNoop(s[1..]);
  }

  lemma DecodeEmpty()
    ensures Decode(Encode([])) == Success([])
  {
    assert EncodeElements([]) == "";
    DecodeEmptyArray(Encode([]));
  }

  /** The two characters `[]` decode to the empty array. */
  lemma DecodeEmptyArray(s: string)
    requires |s| == 2 && s[0] == '[' && s[1] == ']'
    ensures Decode(s) == Success([])
  {
    var s1 := s[1..];
    SkipWhitespaceNoop(s1);
    var rest := s1[1..];
    assert |rest| == 0;
    assert SkipWhitespace(rest) == rest;
  }

  lemma DecodeNonEmpty(xs: seq<string>)
    requires |xs| > 0
    ensures Decode(Encode(xs)) == Success(xs)
  {
    var e := EncodeElements(xs);
    var s := "[" + (e + "]" + "");
    assert Encode(xs) == s;
    if |xs| == 1 { LastShape(xs, ""); } else { ConsShape(xs, ""); }
    ElementsRoundTrip(xs, "");
    HeadAndTail('[', e + "]" + "");
    DecodeBracketed(s, xs);
  }

  /** Reading back what `JSON.stringify` wrote yields the original options. */
  lemma DecodeEncode(xs: seq<string>)
    ensures Decode(Encode(xs)) == Success(xs)
  {
    if |xs| == 0 {
      DecodeEmpty();
    } else {
      DecodeNonEmpty(xs);
    }
  }

  /** Two different option lists are never stored as the same text. */
  lemma EncodeInjective(xs: seq<string>, ys: seq<string>)
    requires Encode(xs) == Encode(ys)
    ensures xs == ys
  {
    DecodeEncode(xs);
    DecodeEncode(ys);
  }
}

=== FILE: quiz_dto.dfy ===
/** The request objects of the quiz endpoints and the constraints their
    validation decorators place on them. Fields are JavaScript numbers after
    `@Type(() => Number)` conversion (modelled as `real`; a missing field is
    `None`). The framework's validation pipe rejects a request that breaks any
    constraint before the service runs, so the service operations take these
    predicates as preconditions. */
module QuizDto {
  import opened Results

  /** `@IsInt()`: the number has no fractional part. */
  predicate IsInt(x: real)
  {
    x.Floor as real == x
  }

  /** Query of `GET application/quiz`. */
  datatype GetQuizzesByLevelDto = GetQuizzesByLevelDto(
    level: Option<real>,
    page: Option<real>,
    limit: Option<real>)

  /** `level`: mandatory integer in [1,3]; `page`: optional integer at least 1;
      `limit`: optional integer in [1,100]. */
  predicate ValidGetQuizzesByLevel(d: GetQuizzesByLevelDto)
  {
    && d.level.Some? && IsInt(d.level.value) && 1.0 <= d.level.value <= 3.0
    && (d.page.Some? ==> IsInt(d.page.value) && 1.0 <= d.page.value)
    && (d.limit.Some? ==> IsInt(d.limit.value) && 1.0 <= d.limit.value <= 100.0)
  }

  /** Body of `POST application/quiz/attempt/answer`. */
  datatype SubmitQuizAnswerDto = SubmitQuizAnswerDto(
    attemptId: Option<string>,
    questionId: Option<string>,
    selectedAnswer: Option<real>)

  /** Both ids present and non-empty; `selectedAnswer` a number at least 0.
      It need not be an integer and is not bounded by the option count. */
  predicate ValidSubmitQuizAnswer(d: SubmitQuizAnswerDto)
  {
    && d.attemptId.Some? && d.attemptId.value != ""
    && d.questionId.Some? && d.questionId.value != ""
    && d.selectedAnswer.Some? && d.selectedAnswer.value >= 0.0
  }

  /** The validated level as an integer of the catalog's range. */
  function Level(d: GetQuizzesByLevelDto): (r: int)
    requires ValidGetQuizzesByLevel(d)
    ensures 1 <= r <= 3
    ensures r as real == d.level.value
  {
    d.level.value.Floor
  }

  /** The page number: the query's, or 1 when absent. */
  function Page(d: GetQuizzesByLevelDto): (r: int)
    requires ValidGetQuizzesByLevel(d)
    ensures r >= 1
    ensures d.page.None? ==> r == 1
    ensures d.page.Some? ==> r as real == d.page.value
  {
    if d.page.Some? then d.page.value.Floor else 1
  }

  /** The page size: the query's, or 10 when absent. */
  function Limit(d: GetQuizzesByLevelDto): (r: int)
    requires ValidGetQuizzesByLevel(d)
    ensures 1 <= r <= 100
    ensures d.limit.None? ==> r == 10
    ensures d.limit.Some? ==> r as real == d.limit.value
  {
    if d.limit.Some? then d.limit.value.Floor else 10
  }

  /** `skip = (page - 1) * limit`: never negative, a whole number of pages,
      zero exactly on the first page. */
  function Skip(d: GetQuizzesByLevelDto): (r: nat)
    requires ValidGetQuizzesByLevel(d)
    ensures r % Limit(d) == 0
    ensures r / Limit(d) == Page(d) - 1
    ensures r == 0 <==> Page(d) == 1
  {
    MultipleOf(Page(d) - 1, Limit(d));
    (Page(d) - 1) * Limit(d)
  }

  lemma MultipleOf(k: nat, n: int)
    requires n > 0
    ensures k * n >= 0 && (k * n) % n == 0 && (k * n) / n == k
  {
    var m := k * n;
    var q, r := m / n, m % n;
    assert m == q * n + r && 0 <= r < n;
    var d := k - q;
    Distribute(k, q, n);
    assert d * n == r;
    if d >= 1 {
      MulAtLeast(d, n);
    } else if d <= -1 {
      MulAtLeast(-d, n);
    }
  }

  lemma Distribute(a: int, b: int, n: int)
    ensures (a - b) * n == a * n - b * n
  {
  }

  lemma MulAtLeast(a: int, n: int)
    requires a >= 1 && n > 0
    ensures a * n >= n
  {
  }

  /** A selected answer with a fractional part, or one beyond every option,
      passes validation. */
  lemma SelectedAnswerUnbounded()
    ensures ValidSubmitQuizAnswer(SubmitQuizAnswerDto(Some("a"), Some("q"), Some(2.5)))
    ensures ValidSubmitQuizAnswer(SubmitQuizAnswerDto(Some("a"), Some("q"), Some(1000.0)))
    ensures !IsInt(2.5)
  {
    assert 2.5.Floor == 2;
  }
}

=== FILE: quiz_invariants.dfy ===
/** Properties that relate several calls of the quiz service: the counter
    invariant the attempt operations keep, what they never touch, how a
    completed attempt reads back, and the over-counting the answer
    operation allows. */
module QuizInvariants {
  import opened Results
  import opened QuizModel
  import opened QuizService
  import QuizDto
  import Scoring

  /** Every answer row belongs to a stored attempt, and every attempt's
      counter equals the number of its answers marked correct. */
  predicate Consistent(s: Store)
  {
    && (forall i :: 0 <= i < |s.answers| ==> s.answers[i].attemptId in s.attempts)
    && (forall id :: id in s.attempts ==> s.attempts[id].correctAnswers == CorrectCount(s.answers, id))
  }

  // ---------------------------------------------------------------- counting

  /** Recording one more answer raises exactly its attempt's count, and only
      when it is marked correct. */
  lemma CorrectCountAppend(answers: seq<Answer>, a: Answer, id: Id)
    ensures CorrectCount(answers + [a], id) ==
      CorrectCount(answers, id) + if a.attemptId == id && a.isCorrect then 1 else 0
  {
    assert (answers + [a])[..|answers|] == answers;
  }

  /** An attempt no answer refers to has a count of zero. */
  lemma {:induction false} CorrectCountNone(answers: seq<Answer>, id: Id)
    requires forall i :: 0 <= i < |answers| ==> answers[i].attemptId != id
    ensures CorrectCount(answers, id) == 0
  {
    if |answers| > 0 {
      CorrectCountNone(answers[..|answers| - 1], id);
    }
  }

  // ---------------------------------------------------------------- the counter invariant

  lemma StartPreservesConsistent(s: Store, quizId: Id, userId: Id, newId: Id)
    requires Consistent(s)
    ensures Consistent(StartQuizAttempt(s, quizId, userId, newId).store)
  {
    var r := StartQuizAttempt(s, quizId, userId, newId);
    if r.outcome.Success? {
      CorrectCountNone(s.answers, newId);
    }
  }

  lemma SubmitPreservesConsistent(s: Store, dto: QuizDto.SubmitQuizAnswerDto, userId: Id)
    requires QuizDto.ValidSubmitQuizAnswer(dto)
    requires Consistent(s)
    ensures Consistent(SubmitAnswer(s, dto, userId).store)
  {
    var r := SubmitAnswer(s, dto, userId);
    if r.outcome.Success? {
      var a := Answer(dto.attemptId.value, dto.questionId.value, dto.selectedAnswer.value, r.outcome.value.isCorrect);
      RecordPreservesConsistent(s, r.store, a);
    }
  }

  /** Appending an answer of a stored attempt and raising that attempt's
      counter exactly when the answer is correct keeps the invariant. */
  lemma RecordPreservesConsistent(s: Store, s1: Store, a: Answer)
    requires Consistent(s)
    requires a.attemptId in s.attempts
    requires s1.answers == s.answers + [a]
    requires s1.attempts.Keys == s.attempts.Keys
    requires s1.attempts[a.attemptId].correctAnswers ==
      s.attempts[a.attemptId].correctAnswers + if a.isCorrect then 1 else 0
    requires forall id :: id in s.attempts && id != a.attemptId ==> s1.attempts[id] == s.attempts[id]
    ensures Consistent(s1)
  {
    assert forall i :: 0 <= i < |s.answers| ==> s1.answers[i] == s.answers[i];
    forall id | id in s1.attempts
      ensures s1.attempts[id].correctAnswers == CorrectCount(s1.answers, id)
    {
      CountAfterRecord(s, s1, a, id);
    }
  }

  lemma CountAfterRecord(s: Store, s1: Store, a: Answer, id: Id)
    requires id in s.attempts && s.attempts[id].correctAnswers == CorrectCount(s.answers, id)
    requires s1.answers == s.answers + [a]
    requires id in s1.attempts
    requires s1.attempts[id].correctAnswers ==
      s.attempts[id].correctAnswers + if a.attemptId == id && a.isCorrect then 1 else 0
    ensures s1.attempts[id].correctAnswers == CorrectCount(s1.answers, id)
  {
    CorrectCountAppend(s.answers, a, id);
  }

  lemma CompletePreservesConsistent(s: Store, attemptId: Id, userId: Id, stampedAt: Time, reportedAt: Time)
    requires Consistent(s)
    ensures Consistent(CompleteQuizAttempt(s, attemptId, userId, stampedAt, reportedAt).store)
  {
  }

  // ---------------------------------------------------------------- frames

  /** Answering never changes who owns an attempt, which quiz it is for or
      its question-count snapshot, and never lowers a counter. */
  lemma SubmitKeepsAttempts(s: Store, dto: QuizDto.SubmitQuizAnswerDto, userId: Id)
    requires QuizDto.ValidSubmitQuizAnswer(dto)
    ensures var s1 := SubmitAnswer(s, dto, userId).store;
      && s1.attempts.Keys == s.attempts.Keys
      && forall id :: id in s.attempts ==>
           && s1.attempts[id].userId == s.attempts[id].userId
           && s1.attempts[id].quizId == s.attempts[id].quizId
           && s1.attempts[id].totalQuestions == s.attempts[id].totalQuestions
           && s1.attempts[id].correctAnswers >= s.attempts[id].correctAnswers
  {
  }

  /** Completing never changes an attempt's owner, quiz, snapshot or counter,
      nor any answer. */
  lemma CompleteKeepsAttempts(s: Store, attemptId: Id, userId: Id, stampedAt: Time, reportedAt: Time)
    ensures var s1 := CompleteQuizAttempt(s, attemptId, userId, stampedAt, reportedAt).store;
      && s1.attempts.Keys == s.attempts.Keys
      && s1.answers == s.answers
      && forall id :: id in s.attempts ==>
           && s1.attempts[id].userId == s.attempts[id].userId
           && s1.attempts[id].quizId == s.attempts[id].quizId
           && s1.attempts[id].totalQuestions == s.attempts[id].totalQuestions
           && s1.attempts[id].correctAnswers == s.attempts[id].correctAnswers
  {
    var r := CompleteQuizAttempt(s, attemptId, userId, stampedAt, reportedAt);
    if Owned(s, attemptId, userId) && AnswerEntries(s, attemptId).Some? {
      var a := s.attempts[attemptId];
      assert r.store.attempts == s.attempts[attemptId := a.(score := r.store.attempts[attemptId].score,
                                                            completedAt := Some(stampedAt))];
    } else {
      assert r.store == s;
    }
  }

  /** The joined question rows depend on the question table only. */
  lemma {:induction false} JoinQuestionsFrame(s1: Store, s2: Store, answers: seq<Answer>)
    requires s1.questions == s2.questions
    ensures JoinQuestions(s1, answers) == JoinQuestions(s2, answers)
  {
    if |answers| > 0 {
      JoinQuestionsFrame(s1, s2, answers[1..]);
    }
  }

  /** An attempt's result entries do not depend on the attempt rows. */
  lemma AnswerEntriesFrame(s: Store, attempts: map<Id, Attempt>, attemptId: Id)
    ensures AnswerEntries(s.(attempts := attempts), attemptId) == AnswerEntries(s, attemptId)
  {
    JoinQuestionsFrame(s.(attempts := attempts), s, AnswersOf(s.answers, attemptId));
  }

  // ---------------------------------------------------------------- reading back

  /** After a successful completion, reading the result as its owner gives
      exactly what completion reported, except the completion time, which
      is the stored clock reading rather than the second one. */
  lemma ResultAfterComplete(s: Store, attemptId: Id, userId: Id, stampedAt: Time, reportedAt: Time)
    requires CompleteQuizAttempt(s, attemptId, userId, stampedAt, reportedAt).outcome.Success?
    ensures var r := CompleteQuizAttempt(s, attemptId, userId, stampedAt, reportedAt);
      GetAttemptResult(r.store, attemptId, Some(userId)) == Success(r.outcome.value.(completedAt := Some(stampedAt)))
    ensures var r := CompleteQuizAttempt(s, attemptId, userId, stampedAt, reportedAt);
      GetAttemptResult(r.store, attemptId, None) == GetAttemptResult(r.store, attemptId, Some(userId))
  {
    var r := CompleteQuizAttempt(s, attemptId, userId, stampedAt, reportedAt);
    AnswerEntriesFrame(s, r.store.attempts, attemptId);
  }

  /** Completing again recomputes the score from the counter as it is then,
      and stamps the newer time. */
  lemma CompleteAgain(s: Store, attemptId: Id, userId: Id, t1: Time, t2: Time, t3: Time, t4: Time)
    requires CompleteQuizAttempt(s, attemptId, userId, t1, t2).outcome.Success?
    ensures var s1 := CompleteQuizAttempt(s, attemptId, userId, t1, t2).store;
      var r := CompleteQuizAttempt(s1, attemptId, userId, t3, t4);
      var a := s.attempts[attemptId];
      && r.outcome.Success?
      && r.store.attempts[attemptId] ==
         a.(score := Some(Scoring.Score(a.totalQuestions, a.correctAnswers)), completedAt := Some(t3))
  {
    var s1 := CompleteQuizAttempt(s, attemptId, userId, t1, t2).store;
    AnswerEntriesFrame(s, s1.attempts, attemptId);
  }

  /** An answer recorded after completion is still accepted and counted,
      but leaves the stored score as it was: the score goes stale until the
      attempt is completed again. */
  lemma AnswerAfterComplete(s: Store, dto: QuizDto.SubmitQuizAnswerDto, userId: Id, t1: Time, t2: Time)
    requires QuizDto.ValidSubmitQuizAnswer(dto)
    requires CompleteQuizAttempt(s, dto.attemptId.value, userId, t1, t2).outcome.Success?
    ensures var id := dto.attemptId.value;
      var s1 := CompleteQuizAttempt(s, id, userId, t1, t2).store;
      var r := SubmitAnswer(s1, dto, userId);
      var a := s.attempts[id];
      && (r.outcome.Success? <==> FindQuestion(s, dto.questionId.value).Some?)
      && r.store.attempts[id].score == Some(Scoring.Score(a.totalQuestions, a.correctAnswers))
      && r.store.attempts[id].correctAnswers == a.correctAnswers + if r.outcome.Success? && r.outcome.value.isCorrect then 1 else 0
  {
    var id := dto.attemptId.value;
    var s1 := CompleteQuizAttempt(s, id, userId, t1, t2).store;
    assert s1.questions == s.questions;
    assert Owned(s1, id, userId);
  }

  // ---------------------------------------------------------------- answering

  /** A selected answer with a fractional part is never marked correct: the
      stored correct answer is an integer. */
  lemma FractionalNeverCorrect(s: Store, dto: QuizDto.SubmitQuizAnswerDto, userId: Id)
    requires QuizDto.ValidSubmitQuizAnswer(dto)
    requires !QuizDto.IsInt(dto.selectedAnswer.value)
    ensures var r := SubmitAnswer(s, dto, userId);
      && (r.outcome.Success? ==> !r.outcome.value.isCorrect)
      && r.store.attempts == s.attempts
  {
  }

  /** Submitting the same correct answer twice counts it twice: nothing ties
      an answer to the attempt's quiz or rejects a repeat, so an attempt whose
      every question was already answered correctly ends above its question
      count and completes with a score above 100. */
  lemma RepeatAnswerExceedsTotal(s: Store, dto: QuizDto.SubmitQuizAnswerDto, userId: Id, t1: Time, t2: Time)
    requires QuizDto.ValidSubmitQuizAnswer(dto)
    requires Owned(s, dto.attemptId.value, userId)
    requires FindQuestion(s, dto.questionId.value).Some?
    requires FindQuestion(s, dto.questionId.value).value.correctAnswer as real == dto.selectedAnswer.value
    requires s.attempts[dto.attemptId.value].correctAnswers == s.attempts[dto.attemptId.value].totalQuestions > 0
    ensures var id := dto.attemptId.value;
      var s1 := SubmitAnswer(s, dto, userId).store;
      && s1.attempts[id].correctAnswers == s1.attempts[id].totalQuestions + 1
      && (AnswerEntries(s1, id).Some? ==>
            CompleteQuizAttempt(s1, id, userId, t1, t2).store.attempts[id].score.value > 100.0)
  {
    var id := dto.attemptId.value;
    var s1 := SubmitAnswer(s, dto, userId).store;
    var a := s1.attempts[id];
    Scoring.ScoreAtMostHundred(a.totalQuestions, a.correctAnswers);
  }

  /** The score of a completed attempt is a percentage exactly when its
      counter has not overtaken its question count. */
  lemma CompletedScoreRange(s: Store, attemptId: Id, userId: Id, t1: Time, t2: Time)
    requires Owned(s, attemptId, userId)
    requires AnswerEntries(s, attemptId).Some?
    ensures var a := s.attempts[attemptId];
      var score := CompleteQuizAttempt(s, attemptId, userId, t1, t2).store.attempts[attemptId].score.value;
      && 0.0 <= score
      && (a.totalQuestions == 0 ==> score == 0.0)
      && (a.totalQuestions > 0 ==> (score <= 100.0 <==> a.correctAnswers <= a.totalQuestions))
  {
    var a := s.attempts[attemptId];
    if a.totalQuestions > 0 {
      Scoring.ScoreAtMostHundred(a.totalQuestions, a.correctAnswers);
    }
  }

  // ---------------------------------------------------------------- a run

  /** A store with one quiz of one question, one user and no attempts. */
  function OneQuestionStore(): (s: Store)
    ensures |s.quizzes| == 1 && |s.questions| == 1 && s.attempts == map[] && s.answers == []
  {
    Store({"u"}, [Quiz("q", "Quiz", None, 1, 0, 1)],
          [Question("k", "q", "Which?", "[\"a\",\"b\"]", 1, None, 0)], map[], [], [])
  }

  /** The attempt `a1` of user `u` on the one-question quiz, with `n` correct answers counted. */
  function RunAttempt(n: nat): Attempt
  {
    Attempt("u", "q", 1, n, None, None)
  }

  /** The answer `1` to question `k`, which is its correct option. */
  function RunDto(): QuizDto.SubmitQuizAnswerDto
  {
    QuizDto.SubmitQuizAnswerDto(Some("a1"), Some("k"), Some(1.0))
  }

  lemma RunStart()
    ensures StartQuizAttempt(OneQuestionStore(), "q", "u", "a1") ==
      Step(OneQuestionStore().(attempts := map["a1" := RunAttempt(0)]), Success(StartView("a1", "q", 1, "Quiz")))
  {
    var s0 := OneQuestionStore();
    assert FindQuiz(s0, "q") == Some(s0.quizzes[0]);
    assert QuestionsOf(s0, "q") == [s0.questions[0]];
  }

  /** Answering `k` correctly in a store that holds only the run's attempt
      appends the answer and raises the counter by one. */
  lemma RunSubmit(s: Store, n: nat)
    requires s.questions == OneQuestionStore().questions
    requires s.attempts == map["a1" := RunAttempt(n)]
    ensures SubmitAnswer(s, RunDto(), "u") ==
      Step(s.(answers := s.answers + [Answer("a1", "k", 1.0, true)], attempts := map["a1" := RunAttempt(n + 1)]),
           Success(SubmitView("k", true, 1, None)))
  {
    assert FindQuestion(s, "k") == Some(s.questions[0]);
    assert s.attempts["a1" := RunAttempt(n + 1)] == map["a1" := RunAttempt(n + 1)];
  }

  /** Completing the run's attempt after its two answers scores it 200. */
  lemma RunComplete(s: Store)
    requires s.questions == OneQuestionStore().questions
    requires s.attempts == map["a1" := RunAttempt(2)]
    requires s.answers == [Answer("a1", "k", 1.0, true), Answer("a1", "k", 1.0, true)]
    ensures CompleteQuizAttempt(s, "a1", "u", 7, 8).store.attempts["a1"] == Attempt("u", "q", 1, 2, Some(200.0), Some(7))
  {
    assert FindQuestion(s, "k") == Some(s.questions[0]);
    assert AnswersOf(s.answers, "a1") == s.answers;
    assert JoinQuestions(s, s.answers).Some?;
    assert Scoring.Score(1, 2) == 200.0;
  }

  /** Starting an attempt, answering its only question correctly twice and
      completing it yields two correct answers out of one and a score of 200. */
  lemma RepeatAnswerRun()
    ensures var s0 := OneQuestionStore();
      var start := StartQuizAttempt(s0, "q", "u", "a1");
      var dto := QuizDto.SubmitQuizAnswerDto(Some("a1"), Some("k"), Some(1.0));
      var s1 := SubmitAnswer(start.store, dto, "u");
      var s2 := SubmitAnswer(s1.store, dto, "u");
      var done := CompleteQuizAttempt(s2.store, "a1", "u", 7, 8);
      && start.outcome == Success(StartView("a1", "q", 1, "Quiz"))
      && s1.outcome.Success? && s1.outcome.value.isCorrect
      && s2.outcome.Success? && s2.outcome.value.isCorrect
      && done.store.attempts["a1"] == Attempt("u", "q", 1, 2, Some(200.0), Some(7))
  {
    RunStart();
    var start := StartQuizAttempt(OneQuestionStore(), "q", "u", "a1");
    RunSubmit(start.store, 0);
    var s1 := SubmitAnswer(start.store, RunDto(), "u");
    RunSubmit(s1.store, 1);
    var s2 := SubmitAnswer(s1.store, RunDto(), "u");
    assert s2.store.answers == [] + [Answer("a1", "k", 1.0, true)] + [Answer("a1", "k", 1.0, true)];
    RunComplete(s2.store);
  }
}

=== FILE: quiz_model.dfy ===
/** The relations the quiz engine reads and writes, as one immutable store.

    Catalog tables and the answer table are sequences in row order (the order
    in which rows were created); attempts, the only rows that are updated in
    place, are a map keyed by id. Ids are generated by the database and enter
    the model as parameters. */
module QuizModel {
  import opened Results
  import Seqs

  type Id = string

  /** A reading of the wall clock (`new Date()`); the model never compares two. */
  type Time = int

  /** A quiz of the catalog; `status == 1` marks it active. */
  datatype Quiz = Quiz(
    id: Id,
    title: string,
    description: Option<string>,
    level: int,
    sortOrder: int,
    status: int)

  /** A question; `options` holds the JSON text of the option list and
      `correctAnswer` the zero-based index of the correct option. */
  datatype Question = Question(
    id: Id,
    quizId: Id,
    question: string,
    options: string,
    correctAnswer: int,
    explanation: Option<string>,
    sortOrder: int)

  /** One user's run through a quiz, stored under its id. `totalQuestions` is
      the snapshot taken at start; `score` and `completedAt` stay null until
      completion. */
  datatype Attempt = Attempt(
    userId: Id,
    quizId: Id,
    totalQuestions: nat,
    correctAnswers: nat,
    score: Option<real>,
    completedAt: Option<Time>)

  /** One submitted answer; `isCorrect` is fixed when it is recorded. The
      selected answer is the request's JavaScript number. */
  datatype Answer = Answer(
    attemptId: Id,
    questionId: Id,
    selectedAnswer: real,
    isCorrect: bool)

  datatype Store = Store(
    users: set<Id>,
    quizzes: seq<Quiz>,
    questions: seq<Question>,
    attempts: map<Id, Attempt>,
    answers: seq<Answer>,
    prayers: seq<string>)

  /** Which lookup failed; `NoAccess` is an ownership mismatch, reported with
      the same not-found status as a missing attempt. */
  datatype Lookup = QuizNotFound | UserNotFound | AttemptNotFound | NoAccess | QuestionNotFound

  /** `NotFoundException` and `InternalServerErrorException`. */
  datatype Error = NotFound(reason: Lookup) | Internal(message: string)

  /** `quiz.findUnique({ where: { id } })`. */
  function FindQuiz(s: Store, id: Id): (r: Option<Quiz>)
    ensures r.Some? ==> r.value.id == id && r.value in s.quizzes
    ensures r.None? <==> forall i :: 0 <= i < |s.quizzes| ==> s.quizzes[i].id != id
  {
    Seqs.FindFirst(s.quizzes, (q: Quiz) => q.id == id)
  }

  /** `quizQuestion.findUnique({ where: { id } })`. */
  function FindQuestion(s: Store, id: Id): (r: Option<Question>)
    ensures r.Some? ==> r.value.id == id && r.value in s.questions
    ensures r.None? <==> forall i :: 0 <= i < |s.questions| ==> s.questions[i].id != id
  {
    Seqs.FindFirst(s.questions, (q: Question) => q.id == id)
  }

  /** The question rows of a quiz, in row order (`quiz.questions`). */
  function QuestionsOf(s: Store, quizId: Id): (r: seq<Question>)
    ensures forall i :: 0 <= i < |r| ==> r[i].quizId == quizId && r[i] in s.questions
    ensures forall i :: 0 <= i < |s.questions| && s.questions[i].quizId == quizId ==> s.questions[i] in r
  {
    Seqs.FilterKeeps(s.questions, (q: Question) => q.quizId == quizId);
    Seqs.Filter(s.questions, (q: Question) => q.quizId == quizId)
  }

  /** The question rows of a quiz ordered by `sort_order` ascending. */
  function OrderedQuestions(s: Store, quizId: Id): (r: seq<Question>)
    ensures multiset(r) == multiset(QuestionsOf(s, quizId))
    ensures Seqs.SortedBy(r, (q: Question) => q.sortOrder)
  {
    Seqs.SortBy(QuestionsOf(s, quizId), (q: Question) => q.sortOrder)
  }

  /** The answer rows of an attempt, in the order they were recorded (`quiz_answers`). */
  function AnswersOf(answers: seq<Answer>, attemptId: Id): (r: seq<Answer>)
    ensures |r| <= |answers|
    ensures forall i :: 0 <= i < |r| ==> r[i].attemptId == attemptId && r[i] in answers
    ensures forall i :: 0 <= i < |answers| && answers[i].attemptId == attemptId ==> answers[i] in r
    ensures (forall i :: 0 <= i < |answers| ==> answers[i].attemptId != attemptId) ==> r == []
  {
    if |answers| == 0 then []
    else
      var init, last := answers[..|answers| - 1], answers[|answers| - 1];
      assert answers == init + [last];
      assert forall i :: 0 <= i < |init| ==> answers[i] == init[i];
      AnswersOf(init, attemptId) + if last.attemptId == attemptId then [last] else []
  }

  /** The answers of an attempt are exactly the filter of the answer table by
      attempt id, in table order. */
  lemma {:induction false} AnswersOfIsFilter(answers: seq<Answer>, attemptId: Id)
    ensures AnswersOf(answers, attemptId) == Seqs.Filter(answers, (a: Answer) => a.attemptId == attemptId)
  {
    if |answers| > 0 {
      var init, last := answers[..|answers| - 1], answers[|answers| - 1];
      assert answers == init + [last];
      AnswersOfIsFilter(init, attemptId);
      Seqs.FilterAppend(init, [last], (a: Answer) => a.attemptId == attemptId);
    }
  }

  /** How many of an attempt's recorded answers are marked correct. */
  function CorrectCount(answers: seq<Answer>, attemptId: Id): nat
  {
    if |answers| == 0 then 0
    else
      var init, last := answers[..|answers| - 1], answers[|answers| - 1];
      CorrectCount(init, attemptId) + if last.attemptId == attemptId && last.isCorrect then 1 else 0
  }

  /** The count is the number of the attempt's answers marked correct, so it
      never exceeds the number of its answers. */
  lemma {:induction false} CorrectCountOfAnswers(answers: seq<Answer>, attemptId: Id)
    ensures CorrectCount(answers, attemptId) == |Seqs.Filter(AnswersOf(answers, attemptId), (a: Answer) => a.isCorrect)|
    ensures CorrectCount(answers, attemptId) <= |AnswersOf(answers, attemptId)|
  {
    if |answers| > 0 {
      var init, last := answers[..|answers| - 1], answers[|answers| - 1];
      assert answers == init + [last];
      CorrectCountOfAnswers(init, attemptId);
      var mine := if last.attemptId == attemptId then [last] else [];
      assert AnswersOf(answers, attemptId) == AnswersOf(init, attemptId) + mine;
      Seqs.FilterAppend(AnswersOf(init, attemptId), mine, (a: Answer) => a.isCorrect);
    }
  }
}

=== FILE: quiz_service.dfy ===
/** The quiz service: catalog reads and the attempt state machine
    (start, answer, complete, read result). Each operation is a pure function
    of the store. Operations that write return a `Step`: the store after the
    call together with what the caller receives, because completion writes
    before it can still fail. Every failure other than a missing or foreign
    row is an internal error. */
module QuizService {
  import opened Results
  import opened QuizModel
  import Seqs
  import JsonStrings
  import QuizDto
  import Scoring

  const FailedToLoadQuizzes: string := "Failed to load quizzes"
  const FailedToLoadQuiz: string := "Failed to load quiz"
  const FailedToStartQuiz: string := "Failed to start quiz"
  const FailedToComplete: string := "Failed to complete quiz"
  const FailedToGetResult: string := "Failed to get quiz result"

  datatype QuestionView = QuestionView(id: Id, question: string, options: seq<string>, explanation: Option<string>)

  datatype QuizView = QuizView(
    id: Id,
    title: string,
    description: Option<string>,
    level: int,
    questions: seq<QuestionView>)

  datatype StartView = StartView(attemptId: Id, quizId: Id, totalQuestions: nat, title: string)

  datatype SubmitView = SubmitView(questionId: Id, isCorrect: bool, correctAnswer: int, explanation: Option<string>)

  datatype AnswerView = AnswerView(
    questionId: Id,
    question: string,
    selectedAnswer: real,
    isCorrect: bool,
    correctAnswer: int,
    options: seq<string>,
    explanation: string)

  /** The attempt as reported to the caller, with one entry per recorded answer. */
  datatype AttemptResult = AttemptResult(
    id: Id,
    quizId: Id,
    userId: Id,
    totalQuestions: nat,
    correctAnswers: nat,
    score: Option<real>,
    completedAt: Option<Time>,
    answers: seq<AnswerView>)

  /** A service call: the store afterwards and the caller's outcome. */
  datatype Step<T> = Step(store: Store, outcome: Result<T, Error>)

  // ---------------------------------------------------------------- options

  /** `JSON.parse(options)` succeeds on this question. */
  predicate Readable(q: Question)
  {
    JsonStrings.Decode(q.options).Success?
  }

  predicate AllReadable(qs: seq<Question>)
  {
    forall i :: 0 <= i < |qs| ==> Readable(qs[i])
  }

  /** `views` shows the questions `qs` one for one, in the same order, each
      with its id, text, decoded options and explanation. */
  predicate ViewsOf(qs: seq<Question>, views: seq<QuestionView>)
  {
    && |views| == |qs|
    && forall i :: 0 <= i < |qs| ==>
         && Readable(qs[i])
         && views[i] == QuestionView(qs[i].id, qs[i].question, JsonStrings.Decode(qs[i].options).value, qs[i].explanation)
  }

  /** Questions as returned by the catalog reads, options decoded; `None`
      when any option list fails to decode. */
  function ViewQuestions(qs: seq<Question>): (r: Option<seq<QuestionView>>)
    ensures r.Some? <==> AllReadable(qs)
    ensures r.Some? ==> ViewsOf(qs, r.value)
  {
    if |qs| == 0 then Some([])
    else match JsonStrings.Decode(qs[0].options)
      case Failure(_) => None
      case Success(options) =>
        match ViewQuestions(qs[1..])
        case None => None
        case Some(rest) => Some([QuestionView(qs[0].id, qs[0].question, options, qs[0].explanation)] + rest)
  }

  /** A quiz with its questions in `sort_order`. */
  function ViewQuiz(s: Store, quiz: Quiz): (r: Option<QuizView>)
    ensures r.Some? <==> AllReadable(OrderedQuestions(s, quiz.id))
    ensures r.Some? ==>
      && r.value.id == quiz.id && r.value.title == quiz.title
      && r.value.description == quiz.description && r.value.level == quiz.level
      && |r.value.questions| == |QuestionsOf(s, quiz.id)|
      && ViewsOf(OrderedQuestions(s, quiz.id), r.value.questions)
  {
    var ordered := OrderedQuestions(s, quiz.id);
    assert |ordered| == |multiset(ordered)| == |QuestionsOf(s, quiz.id)|;
    match ViewQuestions(ordered)
    case None => None
    case Some(questions) => Some(QuizView(quiz.id, quiz.title, quiz.description, quiz.level, questions))
  }

  /** Every quiz of `quizzes` has a view. */
  predicate AllViewable(s: Store, quizzes: seq<Quiz>)
  {
    forall i :: 0 <= i < |quizzes| ==> ViewQuiz(s, quizzes[i]).Some?
  }

  /** `views` holds the view of each quiz of `quizzes`, in the same order. */
  predicate QuizViewsOf(s: Store, quizzes: seq<Quiz>, views: seq<QuizView>)
  {
    |views| == |quizzes| && forall i :: 0 <= i < |quizzes| ==> Some(views[i]) == ViewQuiz(s, quizzes[i])
  }

  function ViewQuizzes(s: Store, quizzes: seq<Quiz>): (r: Option<seq<QuizView>>)
    ensures r.Some? <==> AllViewable(s, quizzes)
    ensures r.Some? ==> QuizViewsOf(s, quizzes, r.value)
  {
    Seqs.MapAll(quizzes, (q: Quiz) => ViewQuiz(s, q))
  }

  // ---------------------------------------------------------------- catalog

  /** Active quizzes of one level. */
  function Matching(s: Store, level: int): seq<Quiz>
  {
    Seqs.Filter(s.quizzes, (q: Quiz) => q.level == level && q.status == 1)
  }

  /** Active quizzes of one level ordered by `sort_order`, ties in table order. */
  function Catalog(s: Store, level: int): seq<Quiz>
  {
    Seqs.SortBy(Matching(s, level), (q: Quiz) => q.sortOrder)
  }

  /** The rows `quiz.findMany` returns: active quizzes of the level, by
      `sort_order`, from position `skip`, at most `take` of them. */
  function SelectQuizzes(s: Store, level: int, skip: nat, take: nat): (r: seq<Quiz>)
    ensures |r| == if skip >= |Matching(s, level)| then 0 else Seqs.Min(take, |Matching(s, level)| - skip)
    ensures forall i :: 0 <= i < |r| ==> r[i] == Catalog(s, level)[skip + i]
    ensures forall i :: 0 <= i < |r| ==> r[i] in s.quizzes && r[i].level == level && r[i].status == 1
    ensures Seqs.SortedBy(r, (q: Quiz) => q.sortOrder)
    ensures multiset(r) <= multiset(Matching(s, level))
  {
    var sorted := Catalog(s, level);
    CatalogActive(s, level);
    Seqs.WindowSorted(sorted, skip, take, (q: Quiz) => q.sortOrder);
    Seqs.Window(sorted, skip, take)
  }

  /** Every quiz of the catalog of a level is a stored active quiz of that level. */
  lemma CatalogActive(s: Store, level: int)
    ensures forall i :: 0 <= i < |Catalog(s, level)| ==>
      var q := Catalog(s, level)[i];
      q in s.quizzes && q.level == level && q.status == 1
  {
    var matching := Matching(s, level);
    var sorted := Catalog(s, level);
    Seqs.FilterKeeps(s.quizzes, (q: Quiz) => q.level == level && q.status == 1);
    forall i | 0 <= i < |sorted|
      ensures sorted[i] in s.quizzes && sorted[i].level == level && sorted[i].status == 1
    {
      assert sorted[i] in multiset(matching);
      var j :| 0 <= j < |matching| && matching[j] == sorted[i];
    }
  }

  /** The views of one page of the catalog, or the internal error raised
      when a quiz's option lists fail to decode. */
  function ListQuizzes(s: Store, level: int, skip: nat, take: nat): (r: Result<seq<QuizView>, Error>)
    ensures r.Failure? ==> r.error == Internal(FailedToLoadQuizzes)
    ensures
      var selected := SelectQuizzes(s, level, skip, take);
      && (r.Success? <==> forall i :: 0 <= i < |selected| ==> AllReadable(OrderedQuestions(s, selected[i].id)))
      && (r.Success? ==> |r.value| == |selected| && |r.value| <= take)
      && (r.Success? ==> QuizViewsOf(s, selected, r.value))
      && (r.Success? ==> forall i :: 0 <= i < |selected| ==>
            r.value[i].id == selected[i].id && r.value[i].level == level)
  {
    var selected := SelectQuizzes(s, level, skip, take);
    match ViewQuizzes(s, selected)
    case None => Failure(Internal(FailedToLoadQuizzes))
    case Some(views) => Success(views)
  }

  /** `getQuizzesByLevel`: one page of active quizzes of the requested level,
      the `(page - 1) * limit`-th to the next `limit` of the catalog. */
  function GetQuizzesByLevel(s: Store, query: QuizDto.GetQuizzesByLevelDto): (r: Result<seq<QuizView>, Error>)
    requires QuizDto.ValidGetQuizzesByLevel(query)
    ensures r.Failure? ==> r.error == Internal(FailedToLoadQuizzes)
    ensures r.Success? ==> |r.value| <= QuizDto.Limit(query)
    ensures r.Success? ==> forall i :: 0 <= i < |r.value| ==> r.value[i].level == QuizDto.Level(query)
    ensures r.Success? ==>
      var level, skip := QuizDto.Level(query), QuizDto.Skip(query);
      var selected := SelectQuizzes(s, level, skip, QuizDto.Limit(query));
      && QuizViewsOf(s, selected, r.value)
      && (forall i :: 0 <= i < |selected| ==>
            selected[i] == Catalog(s, level)[skip + i] && selected[i].status == 1 && selected[i].level == level)
      && Seqs.SortedBy(selected, (q: Quiz) => q.sortOrder)
  {
    ListQuizzes(s, QuizDto.Level(query), QuizDto.Skip(query), QuizDto.Limit(query))
  }

  /** `getQuizById`: any quiz with the id, active or not. */
  function GetQuizById(s: Store, quizId: Id): (r: Result<QuizView, Error>)
    ensures r == Failure(NotFound(QuizNotFound)) <==> FindQuiz(s, quizId).None?
    ensures r.Success? <==> FindQuiz(s, quizId).Some? && AllReadable(OrderedQuestions(s, quizId))
    ensures r.Failure? ==> r.error == NotFound(QuizNotFound) || r.error == Internal(FailedToLoadQuiz)
    ensures r.Success? ==>
      && r.value.id == quizId
      && r.value.title == FindQuiz(s, quizId).value.title
      && r.value.description == FindQuiz(s, quizId).value.description
      && r.value.level == FindQuiz(s, quizId).value.level
      && |r.value.questions| == |QuestionsOf(s, quizId)|
      && ViewsOf(OrderedQuestions(s, quizId), r.value.questions)
  {
    match FindQuiz(s, quizId)
    case None => Failure(NotFound(QuizNotFound))
    case Some(quiz) =>
      match ViewQuiz(s, quiz)
      case None => Failure(Internal(FailedToLoadQuiz))
      case Some(v) => Success(v)
  }

  // ---------------------------------------------------------------- attempts

  /** The attempt exists and was started by this user. */
  predicate Owned(s: Store, attemptId: Id, userId: Id)
  {
    attemptId in s.attempts && s.attempts[attemptId].userId == userId
  }

  /** `startQuizAttempt`: a new attempt snapshotting the quiz's question count. */
  function StartQuizAttempt(s: Store, quizId: Id, userId: Id, newId: Id): (r: Step<StartView>)
    ensures r.outcome.Failure? ==> r.store == s
    ensures FindQuiz(s, quizId).None? ==> r.outcome == Failure(NotFound(QuizNotFound))
    ensures FindQuiz(s, quizId).Some? && userId !in s.users ==> r.outcome == Failure(NotFound(UserNotFound))
    ensures r.outcome.Success? <==> FindQuiz(s, quizId).Some? && userId in s.users && newId !in s.attempts
    ensures r.outcome.Failure? && r.outcome.error.Internal? ==> newId in s.attempts
    ensures r.outcome.Success? ==>
      && r.store.attempts.Keys == s.attempts.Keys + {newId}
      && (forall id :: id in s.attempts ==> r.store.attempts[id] == s.attempts[id])
      && r.store.attempts[newId] == Attempt(userId, quizId, |QuestionsOf(s, quizId)|, 0, None, None)
      && r.store == s.(attempts := r.store.attempts)
      && r.outcome.value == StartView(newId, quizId, |QuestionsOf(s, quizId)|, FindQuiz(s, quizId).value.title)
  {
    match FindQuiz(s, quizId)
    case None => Step(s, Failure(NotFound(QuizNotFound)))
    case Some(quiz) =>
      if userId !in s.users then Step(s, Failure(NotFound(UserNotFound)))
      else if newId in s.attempts then Step(s, Failure(Internal(FailedToStartQuiz)))
      else
        var total := |QuestionsOf(s, quizId)|;
        var attempt := Attempt(userId, quizId, total, 0, None, None);
        Step(s.(attempts := s.attempts[newId := attempt]), Success(StartView(newId, quiz.id, total, quiz.title)))
  }

  /** `submitAnswer`: records one answer and counts it when it is correct. */
  function SubmitAnswer(s: Store, dto: QuizDto.SubmitQuizAnswerDto, userId: Id): (r: Step<SubmitView>)
    requires QuizDto.ValidSubmitQuizAnswer(dto)
    ensures r.outcome.Failure? ==> r.store == s
    ensures dto.attemptId.value !in s.attempts ==> r.outcome == Failure(NotFound(AttemptNotFound))
    ensures dto.attemptId.value in s.attempts && !Owned(s, dto.attemptId.value, userId) ==>
      r.outcome == Failure(NotFound(NoAccess))
    ensures Owned(s, dto.attemptId.value, userId) && FindQuestion(s, dto.questionId.value).None? ==>
      r.outcome == Failure(NotFound(QuestionNotFound))
    ensures r.outcome.Success? <==> Owned(s, dto.attemptId.value, userId) && FindQuestion(s, dto.questionId.value).Some?
    ensures r.outcome.Success? ==>
      var attemptId, selected := dto.attemptId.value, dto.selectedAnswer.value;
      var q := FindQuestion(s, dto.questionId.value).value;
      var correct := r.outcome.value.isCorrect;
      && (correct <==> q.correctAnswer as real == selected)
      && r.outcome.value == SubmitView(q.id, correct, q.correctAnswer, q.explanation)
      && r.store.answers == s.answers + [Answer(attemptId, dto.questionId.value, selected, correct)]
      && r.store.attempts.Keys == s.attempts.Keys
      && r.store.attempts[attemptId] ==
         s.attempts[attemptId].(correctAnswers := s.attempts[attemptId].correctAnswers + if correct then 1 else 0)
      && (forall id :: id in s.attempts && id != attemptId ==> r.store.attempts[id] == s.attempts[id])
      && r.store == s.(attempts := r.store.attempts, answers := r.store.answers)
  {
    var attemptId, questionId, selected := dto.attemptId.value, dto.questionId.value, dto.selectedAnswer.value;
    if attemptId !in s.attempts then Step(s, Failure(NotFound(AttemptNotFound)))
    else if s.attempts[attemptId].userId != userId then Step(s, Failure(NotFound(NoAccess)))
    else match FindQuestion(s, questionId)
      case None => Step(s, Failure(NotFound(QuestionNotFound)))
      case Some(q) =>
        var isCorrect := q.correctAnswer as real == selected;
        var answers := s.answers + [Answer(attemptId, questionId, selected, isCorrect)];
        var attempt := s.attempts[attemptId];
        var attempts :=
          if isCorrect then s.attempts[attemptId := attempt.(correctAnswers := attempt.correctAnswers + 1)]
          else s.attempts;
        Step(s.(answers := answers, attempts := attempts), Success(SubmitView(q.id, isCorrect, q.correctAnswer, q.explanation)))
  }

  /** `answer.question.explanation || ''`. */
  function ExplanationText(e: Option<string>): (r: string)
    ensures e.Some? ==> r == e.value
    ensures e.None? ==> r == ""
  {
    e.GetOr("")
  }

  /** Every answer refers to a question that exists. */
  predicate Joinable(s: Store, answers: seq<Answer>)
  {
    forall i :: 0 <= i < |answers| ==> FindQuestion(s, answers[i].questionId).Some?
  }

  /** The question row each answer refers to (`include: { question: true }`);
      `None` when one is missing. */
  function JoinQuestions(s: Store, answers: seq<Answer>): (r: Option<seq<Question>>)
    ensures r.Some? <==> Joinable(s, answers)
    ensures r.Some? ==> |r.value| == |answers|
    ensures r.Some? ==> forall i :: 0 <= i < |answers| ==> Some(r.value[i]) == FindQuestion(s, answers[i].questionId)
  {
    if |answers| == 0 then Some([])
    else match FindQuestion(s, answers[0].questionId)
      case None => None
      case Some(q) =>
        match JoinQuestions(s, answers[1..])
        case None => None
        case Some(rest) => Some([q] + rest)
  }

  /** One result entry per answer, from the stored answer and its question. */
  function ViewAnswers(answers: seq<Answer>, questions: seq<Question>): (r: Option<seq<AnswerView>>)
    requires |answers| == |questions|
    ensures r.Some? <==> AllReadable(questions)
    ensures r.Some? ==> |r.value| == |answers|
    ensures r.Some? ==> forall i :: 0 <= i < |answers| ==>
      && r.value[i].questionId == answers[i].questionId
      && r.value[i].selectedAnswer == answers[i].selectedAnswer
      && r.value[i].isCorrect == answers[i].isCorrect
      && r.value[i].question == questions[i].question
      && r.value[i].correctAnswer == questions[i].correctAnswer
      && r.value[i].options == JsonStrings.Decode(questions[i].options).value
      && r.value[i].explanation == ExplanationText(questions[i].explanation)
  {
    if |answers| == 0 then Some([])
    else match JsonStrings.Decode(questions[0].options)
      case Failure(_) => None
      case Success(options) =>
        match ViewAnswers(answers[1..], questions[1..])
        case None => None
        case Some(rest) =>
          var a, q := answers[0], questions[0];
          Some([AnswerView(a.questionId, q.question, a.selectedAnswer, a.isCorrect, q.correctAnswer, options,
                           ExplanationText(q.explanation))] + rest)
  }

  /** The result entry for one stored answer: the answer's own fields and
      those of the question it refers to, options decoded. */
  predicate EntryOf(s: Store, a: Answer, v: AnswerView)
  {
    var q := FindQuestion(s, a.questionId);
    && q.Some?
    && JsonStrings.Decode(q.value.options).Success?
    && v.questionId == a.questionId
    && v.selectedAnswer == a.selectedAnswer
    && v.isCorrect == a.isCorrect
    && v.question == q.value.question
    && v.correctAnswer == q.value.correctAnswer
    && v.options == JsonStrings.Decode(q.value.options).value
    && v.explanation == ExplanationText(q.value.explanation)
  }

  /** The entries of a result: one per answer of the attempt, in answer order. */
  predicate EntriesOf(s: Store, answers: seq<Answer>, views: seq<AnswerView>)
  {
    |views| == |answers| && forall i :: 0 <= i < |answers| ==> EntryOf(s, answers[i], views[i])
  }

  /** The attempt's answers joined with their questions and decoded:
      `None` for a missing question row, `Some(None)` for undecodable options. */
  function AnswerEntries(s: Store, attemptId: Id): (r: Option<Option<seq<AnswerView>>>)
    ensures r.Some? <==> Joinable(s, AnswersOf(s.answers, attemptId))
    ensures r.Some? && r.value.Some? ==> EntriesOf(s, AnswersOf(s.answers, attemptId), r.value.value)
  {
    var answers := AnswersOf(s.answers, attemptId);
    match JoinQuestions(s, answers)
    case None => None
    case Some(questions) => Some(ViewAnswers(answers, questions))
  }

  /** The attempt row after `quizAttempt.update`: score and completion time set. */
  function Stamp(s: Store, attemptId: Id, stampedAt: Time): (r: Store)
    requires attemptId in s.attempts
    ensures r.attempts.Keys == s.attempts.Keys
    ensures var a := s.attempts[attemptId];
      r.attempts[attemptId] == a.(score := Some(Scoring.Score(a.totalQuestions, a.correctAnswers)), completedAt := Some(stampedAt))
    ensures forall id :: id in s.attempts && id != attemptId ==> r.attempts[id] == s.attempts[id]
    ensures r == s.(attempts := r.attempts)
  {
    var a := s.attempts[attemptId];
    s.(attempts := s.attempts[attemptId := a.(score := Some(Scoring.Score(a.totalQuestions, a.correctAnswers)), completedAt := Some(stampedAt))])
  }

  /** `completeQuizAttempt`: stamps score and completion time, then reports.
      The clock is read twice: `stampedAt` is stored, `reportedAt` returned.
      The answers are joined with their questions by the same `findUnique`
      that loads the attempt, so a missing question fails before the
      ownership check. */
  function CompleteQuizAttempt(s: Store, attemptId: Id, userId: Id, stampedAt: Time, reportedAt: Time): (r: Step<AttemptResult>)
    ensures attemptId !in s.attempts ==> r == Step(s, Failure(NotFound(AttemptNotFound)))
    ensures attemptId in s.attempts && AnswerEntries(s, attemptId).None? ==>
      r == Step(s, Failure(Internal(FailedToComplete)))
    ensures attemptId in s.attempts && AnswerEntries(s, attemptId).Some? && !Owned(s, attemptId, userId) ==>
      r == Step(s, Failure(NotFound(NoAccess)))
    ensures Owned(s, attemptId, userId) && AnswerEntries(s, attemptId).Some? ==>
      var a := s.attempts[attemptId];
      && r.store.attempts.Keys == s.attempts.Keys
      && r.store.attempts[attemptId] ==
         a.(score := Some(Scoring.Score(a.totalQuestions, a.correctAnswers)), completedAt := Some(stampedAt))
      && (forall id :: id in s.attempts && id != attemptId ==> r.store.attempts[id] == s.attempts[id])
      && r.store == s.(attempts := r.store.attempts)
    ensures r.outcome.Failure? ==> r.outcome.error.NotFound? || r.outcome.error == Internal(FailedToComplete)
    ensures r.outcome.Success? <==>
      Owned(s, attemptId, userId) && AnswerEntries(s, attemptId).Some? && AnswerEntries(s, attemptId).value.Some?
    ensures r.outcome.Success? ==>
      var a := s.attempts[attemptId];
      && r.outcome.value.id == attemptId
      && r.outcome.value.userId == userId
      && r.outcome.value.quizId == a.quizId
      && r.outcome.value.totalQuestions == a.totalQuestions
      && r.outcome.value.correctAnswers == a.correctAnswers
      && r.outcome.value.score == Some(Scoring.Score(a.totalQuestions, a.correctAnswers))
      && r.outcome.value.completedAt == Some(reportedAt)
      && EntriesOf(s, AnswersOf(s.answers, attemptId), r.outcome.value.answers)
  {
    if attemptId !in s.attempts then Step(s, Failure(NotFound(AttemptNotFound)))
    else
      var a := s.attempts[attemptId];
      match AnswerEntries(s, attemptId)
      case None => Step(s, Failure(Internal(FailedToComplete)))
      case Some(entries) =>
        if a.userId != userId then Step(s, Failure(NotFound(NoAccess)))
        else
          var score := Scoring.Score(a.totalQuestions, a.correctAnswers);
          var s' := Stamp(s, attemptId, stampedAt);
          match entries
          case None => Step(s', Failure(Internal(FailedToComplete)))
          case Some(views) =>
            Step(s', Success(AttemptResult(attemptId, a.quizId, a.userId, a.totalQuestions, a.correctAnswers,
                                           Some(score), Some(reportedAt), views)))
  }

  /** `if (userId && ...)`: ownership is checked only for a non-empty caller id. */
  predicate ChecksOwner(userId: Option<Id>)
  {
    userId.Some? && userId.value != ""
  }

  /** `getAttemptResult`: reports the attempt as last persisted. As in
      `completeQuizAttempt`, a missing question fails before the ownership
      check; undecodable options fail after it. */
  function GetAttemptResult(s: Store, attemptId: Id, userId: Option<Id>): (r: Result<AttemptResult, Error>)
    ensures attemptId !in s.attempts ==> r == Failure(NotFound(AttemptNotFound))
    ensures attemptId in s.attempts && AnswerEntries(s, attemptId).None? ==> r == Failure(Internal(FailedToGetResult))
    ensures attemptId in s.attempts && AnswerEntries(s, attemptId).Some? && ChecksOwner(userId) && !Owned(s, attemptId, userId.value) ==>
      r == Failure(NotFound(NoAccess))
    ensures r.Failure? ==> r.error.NotFound? || r.error == Internal(FailedToGetResult)
    ensures r.Success? <==>
      && attemptId in s.attempts
      && (ChecksOwner(userId) ==> Owned(s, attemptId, userId.value))
      && AnswerEntries(s, attemptId).Some? && AnswerEntries(s, attemptId).value.Some?
    ensures r.Success? ==>
      var a := s.attempts[attemptId];
      && r.value.id == attemptId
      && r.value.userId == a.userId
      && r.value.quizId == a.quizId
      && r.value.totalQuestions == a.totalQuestions
      && r.value.correctAnswers == a.correctAnswers
      && r.value.score == a.score
      && r.value.completedAt == a.completedAt
      && EntriesOf(s, AnswersOf(s.answers, attemptId), r.value.answers)
  {
    if attemptId !in s.attempts then Failure(NotFound(AttemptNotFound))
    else
      var a := s.attempts[attemptId];
      match AnswerEntries(s, attemptId)
      case None => Failure(Internal(FailedToGetResult))
      case Some(entries) =>
        if ChecksOwner(userId) && a.userId != userId.value then Failure(NotFound(NoAccess))
        else match entries
          case None => Failure(Internal(FailedToGetResult))
          case Some(views) =>
            Success(AttemptResult(attemptId, a.quizId, a.userId, a.totalQuestions, a.correctAnswers, a.score, a.completedAt, views))
  }
}

=== FILE: results.dfy ===
/** Failure-compatible wrappers used by every module of the model. */
module Results {

  /** A value that may be absent: a nullable column, an optional field. */
  datatype Option<+T> = None | Some(value: T) {

    /** The value, or `default` when absent (the `??` operator). */
    function GetOr(default: T): T
    {
      match this
      case Some(v) => v
      case None => default
    }
  }

  /** The outcome of an operation that can fail with an error of type `E`. */
  datatype Result<+T, +E> = Success(value: T) | Failure(error: E) {

    predicate IsFailure()
    {
      Failure?
    }

    function PropagateFailure<U>(): Result<U, E>
      requires Failure?
    {
      Failure(error)
    }

    function Extract(): T
      requires Success?
    {
      value
    }
  }
}

=== FILE: scoring.dfy ===
/** The score of a completed attempt: the percentage of correct answers
    relative to the attempt's snapshotted question count. The source divides
    JavaScript numbers; the model computes the exact rational value, so no
    rounding takes place. */
module Scoring {

  /** `total > 0 ? correct / total * 100 : 0`. */
  function Score(total: nat, correct: nat): (r: real)
    ensures r >= 0.0
    ensures total == 0 ==> r == 0.0
    ensures total > 0 ==> r * (total as real) == (correct as real) * 100.0
  {
    if total > 0 then (correct as real / total as real) * 100.0 else 0.0
  }

  /** The score is a percentage exactly when no more answers were counted
      correct than the attempt has questions. */
  lemma ScoreAtMostHundred(total: nat, correct: nat)
    requires total > 0
    ensures Score(total, correct) <= 100.0 <==> correct <= total
  {
    var r := Score(total, correct);
    var t := total as real;
    assert r * t == (correct as real) * 100.0;
    if r <= 100.0 {
      assert r * t <= 100.0 * t;
    } else {
      assert r * t > 100.0 * t;
    }
  }

  /** More correct answers never lower the score. */
  lemma ScoreMonotone(total: nat, c1: nat, c2: nat)
    requires c1 <= c2
    ensures Score(total, c1) <= Score(total, c2)
  {
    if total > 0 {
      var t := total as real;
      assert Score(total, c1) * t <= Score(total, c2) * t;
    }
  }

  /** All answers correct gives exactly 100. */
  lemma ScoreFull(total: nat)
    requires total > 0
    ensures Score(total, total) == 100.0
  {
    var t := total as real;
    assert Score(total, total) * t == 100.0 * t;
  }

  lemma ScoreExamples()
    ensures Score(0, 0) == 0.0
    ensures Score(5, 5) == 100.0
    ensures Score(5, 2) == 40.0
    ensures Score(4, 3) == 75.0
    ensures Score(3, 2) * 3.0 == 200.0
  {
    ScoreFull(5);
  }
}

=== FILE: seed_command.dfy ===
/** The `seed` command: the fixed roles, the permissions generated from the
    hard-coded permission groups, and the role grants selected by title
    filters. Permission ids are the decimal strings of a running counter. */
module SeedCommand {
  import opened Results
  import Seqs

  // ---- decimal ids (`String(++i)`) ----

  function DigitChar(d: nat): char
    requires d < 10
  {
    "0123456789"[d]
  }

  function DigitValue(c: char): nat
  {
    if '0' <= c <= '9' then (c as int - '0' as int) as nat else 0
  }

  /** The decimal text of `n`, without leading zeros. */
  function NatToString(n: nat): (r: string)
    ensures |r| > 0
    decreases n
  {
    if n < 10 then [DigitChar(n)] else NatToString(n / 10) + [DigitChar(n % 10)]
  }

  /** The value of a string of decimal digits. */
  function StringToNat(s: string): nat
  {
    if |s| == 0 then 0 else StringToNat(s[..|s| - 1]) * 10 + DigitValue(s[|s| - 1])
  }

  /** Reading back the decimal text of a number gives the number. */
  lemma {:induction false} NatStringRoundTrip(n: nat)
    ensures StringToNat(NatToString(n)) == n
    decreases n
  {
    if n >= 10 {
      var s := NatToString(n);
      NatStringRoundTrip(n / 10);
      assert s[..|s| - 1] == NatToString(n / 10);
    }
  }

  /** Distinct counters give distinct ids. */
  lemma NatToStringInjective(m: nat, n: nat)
    ensures NatToString(m) == NatToString(n) <==> m == n
  {
    NatStringRoundTrip(m);
    NatStringRoundTrip(n);
  }

  // ---- String.prototype.substring ----

  function Clamp(x: int, n: nat): nat
  {
    if x < 0 then 0 else if x > n then n else x
  }

  /** `s.substring(a, b)`: both ends clamped to `[0, |s|]`, swapped when out of order. */
  function Substring(s: string, a: int, b: int): (r: string)
    ensures |r| <= |s|
  {
    var i, j := Clamp(a, |s|), Clamp(b, |s|);
    if i <= j then s[i..j] else s[j..i]
  }

  /** `s.substring(0, |p|) == p` holds exactly when `p` is a prefix of `s`. */
  lemma SubstringPrefix(s: string, p: string)
    ensures Substring(s, 0, |p|) == p <==> |p| <= |s| && s[..|p|] == p
  {
  }

  /** A non-empty leading substring starts with the string's first character. */
  lemma {:induction false} SubstringHead(s: string, n: int)
    requires n > 0 && |s| > 0
    ensures |Substring(s, 0, n)| > 0 && Substring(s, 0, n)[0] == s[0]
  {
  }

  // ---- roles ----

  datatype Role = Role(id: string, title: string, name: string)

  /** `roleSeed`: the five fixed roles. */
  function Roles(): (r: seq<Role>)
    ensures |r| == 5
    ensures forall k :: 0 <= k < 5 ==> r[k].id == NatToString(k + 1)
  {
    [ Role("1", "Super Admin", "su_admin"),
      Role("2", "Admin", "admin"),
      Role("3", "Project Manager", "project_manager"),
      Role("4", "Member", "member"),
      Role("5", "Viewer", "viewer") ]
  }

  // ---- permissions ----

  /** A permission group; a group with a scope lists its own actions. */
  datatype Group = Group(title: string, subject: string, scope: Option<seq<string>>)

  datatype Permission = Permission(id: string, title: string, action: string, subject: string)

  const DefaultActions: seq<string> := ["read", "create", "update", "show", "delete"]

  const SystemTenantGroup := Group("system_tenant_management", "SystemTenant", None)
  const UserGroup := Group("user_management", "User", None)
  const RoleGroup := Group("role_management", "Role", None)
  const ProjectGroup := Group("Project", "Project", None)
  const TaskGroup := Group("Task", "Task", Some(["read", "create", "update", "show", "delete", "assign"]))
  const CommentGroup := Group("Comment", "Comment", None)

  /** The hard-coded permission groups, in order. */
  const PermissionGroups: seq<Group> :=
    [SystemTenantGroup, UserGroup, RoleGroup, ProjectGroup, TaskGroup, CommentGroup]

  /** The actions a group yields: its scope when present (any array is truthy),
      the five default actions otherwise. */
  function Actions(g: Group): seq<string>
  {
    match g.scope
    case Some(scope) => scope
    case None => DefaultActions
  }

  /** A group paired with one of its actions: what one iteration of the inner loop sees. */
  datatype Entry = Entry(group: Group, action: string)

  /** The entries of one group, in the order of its actions. */
  function GroupEntries(g: Group): (r: seq<Entry>)
    ensures |r| == |Actions(g)|
    ensures forall k :: 0 <= k < |r| ==> r[k] == Entry(g, Actions(g)[k])
  {
    var acts := Actions(g);
    seq(|acts|, k requires 0 <= k < |acts| => Entry(g, acts[k]))
  }

  /** The entries of several groups, group after group. */
  function Entries(groups: seq<Group>): seq<Entry>
  {
    if |groups| == 0 then [] else GroupEntries(groups[0]) + Entries(groups[1..])
  }

  lemma {:induction false} EntriesAppend(a: seq<Group>, b: seq<Group>)
    ensures Entries(a + b) == Entries(a) + Entries(b)
  {
    if |a| == 0 {
      assert a + b == b;
    } else {
      assert (a + b)[1..] == a[1..] + b;
      EntriesAppend(a[1..], b);
    }
  }

  /** The permission made at counter value `n` for one entry; `cfirst`
      capitalises the action word and is left uninterpreted. */
  function MakePermission(e: Entry, cfirst: string -> string, n: nat): Permission
  {
    Permission(NatToString(n), e.group.title + "_" + e.action, cfirst(e.action), e.group.subject)
  }

  /** The permissions of the given groups, the counter starting from zero and
      incremented before each permission is made. */
  function Generate(groups: seq<Group>, cfirst: string -> string): (r: seq<Permission>)
  {
    Number(Entries(groups), cfirst)
  }

  /** The permissions of a run of entries, the `k`-th made at counter value `k + 1`. */
  function Number(es: seq<Entry>, cfirst: string -> string): seq<Permission>
  {
    seq(|es|, k requires 0 <= k < |es| => MakePermission(es[k], cfirst, k + 1))
  }

  /** Numbering one more entry appends one permission made at the next counter value. */
  lemma NumberSnoc(es: seq<Entry>, e: Entry, cfirst: string -> string)
    ensures Number(es + [e], cfirst) == Number(es, cfirst) + [MakePermission(e, cfirst, |es| + 1)]
  {
  }

  /** The nested loops of `permissionSeed`: for each group, push its
      permissions with the running counter. */
  method PermissionSeed(groups: seq<Group>, cfirst: string -> string) returns (perms: seq<Permission>)
    ensures perms == Generate(groups, cfirst)
  {
    perms := [];
    var i := 0;
    for g := 0 to |groups|
      invariant perms == Number(Entries(groups[..g]), cfirst)
      invariant i == |perms|
    {
      perms, i := PushGroup(perms, i, groups[g], Entries(groups[..g]), cfirst);
      assert groups[..g + 1] == groups[..g] + [groups[g]];
      EntriesAppend(groups[..g], [groups[g]]);
      assert Entries([groups[g]]) == GroupEntries(groups[g]) by {
        assert GroupEntries(groups[g]) + [] == GroupEntries(groups[g]);
      }
    }
    assert groups[..|groups|] == groups;
  }

  /** The inner loop of `permissionSeed`: for each action of the group (the
      scope when present, the defaults otherwise), increment the counter and
      push a permission with it as id. */
  method PushGroup(perms: seq<Permission>, i: nat, group: Group, ghost before: seq<Entry>,
                   cfirst: string -> string) returns (out: seq<Permission>, j: nat)
    requires perms == Number(before, cfirst) && i == |perms|
    ensures out == Number(before + GroupEntries(group), cfirst) && j == |out|
  {
    var acts := match group.scope case Some(scope) => scope case None => DefaultActions;
    out, j := perms, i;
    for k := 0 to |acts|
      invariant out == Number(before + GroupEntries(group)[..k], cfirst)
      invariant j == |out|
    {
      NumberSnoc(before + GroupEntries(group)[..k], Entry(group, acts[k]), cfirst);
      assert before + GroupEntries(group)[..k + 1] == before + GroupEntries(group)[..k] + [Entry(group, acts[k])];
      j := j + 1;
      out := out + [Permission(NatToString(j), group.title + "_" + acts[k], cfirst(acts[k]), group.subject)];
    }
    assert GroupEntries(group)[..|acts|] == GroupEntries(group);
  }

  /** `permissionSeed`: the permissions of the hard-coded groups. */
  function Permissions(cfirst: string -> string): seq<Permission>
  {
    Generate(PermissionGroups, cfirst)
  }

  /** One permission per (group, action) in loop order: the id is the
      counter's next value, the title is the group title, `'_'` and the action
      word, the action the capitalised word, the subject the group's. */
  lemma GenerateShape(groups: seq<Group>, cfirst: string -> string)
    ensures var r := Generate(groups, cfirst);
      var es := Entries(groups);
      && |r| == |es|
      && forall k :: 0 <= k < |r| ==>
        r[k].id == NatToString(k + 1) &&
        r[k].title == es[k].group.title + "_" + es[k].action &&
        r[k].action == cfirst(es[k].action) &&
        r[k].subject == es[k].group.subject
  {
  }

  /** The entries of the hard-coded groups, group by group. */
  lemma {:induction false} EntriesLayout()
    ensures Entries(PermissionGroups) ==
      GroupEntries(SystemTenantGroup) + GroupEntries(UserGroup) + GroupEntries(RoleGroup) +
      GroupEntries(ProjectGroup) + GroupEntries(TaskGroup) + GroupEntries(CommentGroup)
  {
    var gs := PermissionGroups;
    assert gs == [gs[0]] + [gs[1]] + [gs[2]] + [gs[3]] + [gs[4]] + [gs[5]];
    EntriesAppend([gs[0]] + [gs[1]] + [gs[2]] + [gs[3]] + [gs[4]], [gs[5]]);
    EntriesAppend([gs[0]] + [gs[1]] + [gs[2]] + [gs[3]], [gs[4]]);
    EntriesAppend([gs[0]] + [gs[1]] + [gs[2]], [gs[3]]);
    EntriesAppend([gs[0]] + [gs[1]], [gs[2]]);
    EntriesAppend([gs[0]], [gs[1]]);
    forall g | g in gs
      ensures Entries([g]) == GroupEntries(g)
    {
      assert GroupEntries(g) + [] == GroupEntries(g);
    }
  }

  /** Five groups of five default actions and Task's six scoped ones. */
  lemma PermissionCount(cfirst: string -> string)
    ensures |Permissions(cfirst)| == 31
  {
    EntriesLayout();
  }

  /** No two generated permissions share an id. */
  lemma PermissionIdsDistinct(cfirst: string -> string)
    ensures forall i, j :: 0 <= i < j < |Permissions(cfirst)| ==>
      Permissions(cfirst)[i].id != Permissions(cfirst)[j].id
  {
    forall i, j | 0 <= i < j < |Permissions(cfirst)|
      ensures Permissions(cfirst)[i].id != Permissions(cfirst)[j].id
    {
      NatToStringInjective(i + 1, j + 1);
    }
  }

  // ---- role grants (`permissionRoleSeed`) ----

  datatype Grant = Grant(roleId: string, permissionId: string)

  const SystemPrefix: string := "system_tenant_management_"

  /** Role "1": titles whose first 25 characters are the system prefix. */
  predicate SuAdminPermission(p: Permission)
  {
    Substring(p.title, 0, 25) == SystemPrefix
  }

  /** Role "2": every other title. */
  predicate AdminPermission(p: Permission)
  {
    Substring(p.title, 0, 25) != SystemPrefix
  }

  /** Role "3": three lower-case project titles, or a `Task`/`Comment` head. */
  predicate ManagerPermission(p: Permission)
  {
    p.title == "project_read" || p.title == "project_show" || p.title == "project_update" ||
    Substring(p.title, 0, 4) == "Task" || Substring(p.title, 0, 7) == "Comment"
  }

  /** Role "4": lower-case project, task and comment titles. */
  predicate MemberPermission(p: Permission)
  {
    p.title == "project_read" || p.title == "project_show" ||
    p.title == "task_read" || p.title == "task_show" || p.title == "task_update" ||
    Substring(p.title, 0, 7) == "comment"
  }

  /** Role "5": four lower-case read and show titles. */
  predicate ViewerPermission(p: Permission)
  {
    p.title == "project_read" || p.title == "project_show" ||
    p.title == "task_read" || p.title == "comment_read"
  }

  /** The grant rows of one role for the selected permissions, in order. */
  function GrantsFor(roleId: string, perms: seq<Permission>): (r: seq<Grant>)
    ensures |r| == |perms|
    ensures forall k :: 0 <= k < |r| ==> r[k] == Grant(roleId, perms[k].id)
  {
    seq(|perms|, k requires 0 <= k < |perms| => Grant(roleId, perms[k].id))
  }

  /** The grants of the five roles, each filter applied to the whole
      permission table `all` as read back from the store. */
  function PermissionRoles(all: seq<Permission>): seq<Grant>
  {
    GrantsFor("1", Seqs.Filter(all, SuAdminPermission)) +
    GrantsFor("2", Seqs.Filter(all, AdminPermission)) +
    GrantsFor("3", Seqs.Filter(all, ManagerPermission)) +
    GrantsFor("4", Seqs.Filter(all, MemberPermission)) +
    GrantsFor("5", Seqs.Filter(all, ViewerPermission))
  }

  /** Roles "1" and "2" split any permission table between them. */
  lemma AdminSplit(all: seq<Permission>)
    ensures multiset(Seqs.Filter(all, SuAdminPermission)) + multiset(Seqs.Filter(all, AdminPermission)) == multiset(all)
    ensures forall p :: SuAdminPermission(p) <==> !AdminPermission(p)
  {
    Seqs.FilterPartition(all, SuAdminPermission, AdminPermission);
  }

  // ---- which generated permissions each role receives ----

  /** What the first character of a title rules out: role "1" needs an 's',
      role "3" a 'p', 'T' or 'C', roles "4" and "5" a 'p', 't' or 'c'. */
  lemma {:induction false} HeadRejects(p: Permission)
    requires |p.title| > 0
    ensures p.title[0] != 's' ==> !SuAdminPermission(p)
    ensures p.title[0] !in "pTC" ==> !ManagerPermission(p)
    ensures p.title[0] !in "ptc" ==> !MemberPermission(p) && !ViewerPermission(p)
  {
    SubstringHead(p.title, 25);
    SubstringHead(p.title, 4);
    SubstringHead(p.title, 7);
    assert SystemPrefix[0] == 's' && "Task"[0] == 'T' && "Comment"[0] == 'C' && "comment"[0] == 'c';
  }

  /** The group titles whose permissions go to role "1" only, to role "2" only,
      and to roles "2" and "3". */
  predicate SystemTitle(t: string) { t == "system_tenant_management" }
  predicate PlainTitle(t: string) { t == "user_management" || t == "role_management" || t == "Project" }
  predicate ManagedTitle(t: string) { t == "Task" || t == "Comment" }

  /** How the five role filters treat a permission, given its group's kind. */
  predicate Selection(p: Permission, system: bool, managed: bool)
  {
    && (SuAdminPermission(p) <==> system)
    && (AdminPermission(p) <==> !system)
    && (ManagerPermission(p) <==> managed)
    && !MemberPermission(p)
    && !ViewerPermission(p)
  }

  /** A title made of a group title and `'_'` is selected by its group's kind. */
  lemma {:induction false} TitleSelection(p: Permission, t: string)
    requires SystemTitle(t) || PlainTitle(t) || ManagedTitle(t)
    requires |p.title| > |t| && p.title[..|t| + 1] == t + "_"
    ensures Selection(p, SystemTitle(t), ManagedTitle(t))
  {
    assert p.title[0] == t[0];
    HeadRejects(p);
    if SystemTitle(t) {
      assert t + "_" == SystemPrefix;
      SubstringPrefix(p.title, SystemPrefix);
    } else if t == "Task" {
      assert p.title[..4] == "Task";
      SubstringPrefix(p.title, "Task");
    } else if t == "Comment" {
      assert p.title[..7] == "Comment";
      SubstringPrefix(p.title, "Comment");
    }
  }

  /** The group of each generated entry: five system-tenant entries, five each
      of user, role and project management, six of Task and five of Comment. */
  lemma {:induction false} EntryGroups()
    ensures var es := Entries(PermissionGroups);
      && |es| == 31
      && (forall k :: 0 <= k < 5 ==> es[k].group == SystemTenantGroup)
      && (forall k :: 5 <= k < 10 ==> es[k].group == UserGroup)
      && (forall k :: 10 <= k < 15 ==> es[k].group == RoleGroup)
      && (forall k :: 15 <= k < 20 ==> es[k].group == ProjectGroup)
      && (forall k :: 20 <= k < 26 ==> es[k].group == TaskGroup)
      && (forall k :: 26 <= k < 31 ==> es[k].group == CommentGroup)
  {
    EntriesLayout();
  }

  /** A generated permission is selected according to its group's kind. */
  lemma {:induction false} EntrySelection(cfirst: string -> string, k: nat, g: Group)
    requires k < |Entries(PermissionGroups)| && Entries(PermissionGroups)[k].group == g
    requires SystemTitle(g.title) || PlainTitle(g.title) || ManagedTitle(g.title)
    ensures k < |Permissions(cfirst)|
    ensures Selection(Permissions(cfirst)[k], SystemTitle(g.title), ManagedTitle(g.title))
  {
    var es := Entries(PermissionGroups);
    var p := Permissions(cfirst)[k];
    GenerateShape(PermissionGroups, cfirst);
    assert p.title == (g.title + "_") + es[k].action;
    TitleSelection(p, g.title);
  }

  /** Which roles select the `i`-th generated permission: role "1" the first
      five, role "2" the rest, role "3" those from the twenty-first on. */
  lemma {:induction false} SelectionAt(cfirst: string -> string, i: nat)
    requires i < 31
    ensures |Permissions(cfirst)| == 31
    ensures Selection(Permissions(cfirst)[i], i < 5, 20 <= i)
  {
    EntryGroups();
    var g := Entries(PermissionGroups)[i].group;
    EntrySelection(cfirst, i, g);
  }

  /** Over the generated permissions: role "1" gets the five system-tenant
      permissions, role "2" the other 26, role "3" exactly the `Task_*` and
      `Comment_*` ones (the lower-case `project_*` literals match nothing), and
      roles "4" and "5" nothing, since all their literals are lower-case. */
  lemma {:induction false} RoleSelections(cfirst: string -> string)
    ensures var all := Permissions(cfirst);
      && |all| == 31
      && Seqs.Filter(all, SuAdminPermission) == all[..5]
      && Seqs.Filter(all, AdminPermission) == all[5..]
      && Seqs.Filter(all, ManagerPermission) == all[20..]
      && Seqs.Filter(all, MemberPermission) == []
      && Seqs.Filter(all, ViewerPermission) == []
  {
    var all := Permissions(cfirst);
    PermissionCount(cfirst);
    forall i | 0 <= i < |all|
      ensures Selection(all[i], i < 5, 20 <= i)
    {
      SelectionAt(cfirst, i);
    }
    Seqs.FilterPrefix(all, 5, SuAdminPermission);
    Seqs.FilterSuffix(all, 5, AdminPermission);
    Seqs.FilterSuffix(all, 20, ManagerPermission);
    Seqs.FilterNone(all, MemberPermission);
    Seqs.FilterNone(all, ViewerPermission);
  }

  /** The grant rows of a fresh seed: 5 for role "1", 26 for role "2" and 11
      for role "3", each naming the permission it grants. */
  lemma {:induction false} SeedGrants(cfirst: string -> string)
    ensures var all := Permissions(cfirst);
      var r := PermissionRoles(all);
      && |all| == 31
      && r == GrantsFor("1", all[..5]) + GrantsFor("2", all[5..]) + GrantsFor("3", all[20..])
      && |r| == 42
  {
    var all := Permissions(cfirst);
    RoleSelections(cfirst);
    GrantsOfSelections(all);
    assert |GrantsFor("1", all[..5])| == 5 && |GrantsFor("2", all[5..])| == 26 && |GrantsFor("3", all[20..])| == 11;
  }

  lemma {:induction false} GrantsOfSelections(all: seq<Permission>)
    requires |all| == 31
    requires Seqs.Filter(all, SuAdminPermission) == all[..5]
    requires Seqs.Filter(all, AdminPermission) == all[5..]
    requires Seqs.Filter(all, ManagerPermission) == all[20..]
    requires Seqs.Filter(all, MemberPermission) == []
    requires Seqs.Filter(all, ViewerPermission) == []
    ensures PermissionRoles(all) == GrantsFor("1", all[..5]) + GrantsFor("2", all[5..]) + GrantsFor("3", all[20..])
  {
    TrailingGrantsEmpty(GrantsFor("1", all[..5]) + GrantsFor("2", all[5..]) + GrantsFor("3", all[20..]));
  }

  lemma TrailingGrantsEmpty(g: seq<Grant>)
    ensures g + GrantsFor("4", []) + GrantsFor("5", []) == g
  {
    assert GrantsFor("4", []) == [] && GrantsFor("5", []) == [];
  }
}

=== FILE: seqs.dfy ===
/** Sequence operations shared by the model: the filters, finds, orderings and
    windows that the ORM queries and the array methods of the source perform. */
module Seqs {
  import opened Results

  function Min(a: int, b: int): int
  {
    if a <= b then a else b
  }

  /** `Array.prototype.filter`: the elements of `xs` that satisfy `p`, in order. */
  function Filter<T(==)>(xs: seq<T>, p: T -> bool): (r: seq<T>)
    ensures |r| <= |xs|
    ensures forall i :: 0 <= i < |r| ==> p(r[i])
    ensures multiset(r) <= multiset(xs)
  {
    if |xs| == 0 then []
    else
      assert xs == [xs[0]] + xs[1..];
      if p(xs[0]) then [xs[0]] + Filter(xs[1..], p)
      else Filter(xs[1..], p)
  }

  /** Filtering adds nothing and drops no element that satisfies `p`. */
  lemma {:induction false} FilterKeeps<T>(xs: seq<T>, p: T -> bool)
    ensures forall i :: 0 <= i < |Filter(xs, p)| ==> Filter(xs, p)[i] in xs
    ensures forall i :: 0 <= i < |xs| && p(xs[i]) ==> xs[i] in Filter(xs, p)
  {
    if |xs| > 0 {
      FilterKeeps(xs[1..], p);
      assert forall i :: 1 <= i < |xs| ==> xs[i] == xs[1..][i - 1];
    }
  }

  lemma {:induction false} FilterAppend<T>(a: seq<T>, b: seq<T>, p: T -> bool)
    ensures Filter(a + b, p) == Filter(a, p) + Filter(b, p)
  {
    if |a| == 0 {
      assert a + b == b;
    } else {
      assert (a + b)[1..] == a[1..] + b;
      FilterAppend(a[1..], b, p);
    }
  }

  /** Filtering keeps everything when every element passes. */
  lemma {:induction false} FilterAll<T>(xs: seq<T>, p: T -> bool)
    requires forall i :: 0 <= i < |xs| ==> p(xs[i])
    ensures Filter(xs, p) == xs
  {
    if |xs| > 0 {
      FilterAll(xs[1..], p);
    }
  }

  /** Filtering keeps nothing when no element passes. */
  lemma {:induction false} FilterNone<T>(xs: seq<T>, p: T -> bool)
    requires forall i :: 0 <= i < |xs| ==> !p(xs[i])
    ensures Filter(xs, p) == []
  {
    if |xs| > 0 {
      FilterNone(xs[1..], p);
    }
  }

  /** Filtering keeps exactly the first `n` elements when only those pass. */
  lemma FilterPrefix<T>(xs: seq<T>, n: nat, p: T -> bool)
    requires n <= |xs|
    requires forall i :: 0 <= i < |xs| ==> (p(xs[i]) <==> i < n)
    ensures Filter(xs, p) == xs[..n]
  {
    FilterSplit(xs, n, p);
    FilterFront(xs, n, p, true);
    FilterBack(xs, n, p, false);
    var front, back := Filter(xs[..n], p), Filter(xs[n..], p);
    assert front == xs[..n] && back == [];
    assert front + back == xs[..n];
  }

  /** Filtering keeps exactly the elements from index `n` on when only those pass. */
  lemma FilterSuffix<T>(xs: seq<T>, n: nat, p: T -> bool)
    requires n <= |xs|
    requires forall i :: 0 <= i < |xs| ==> (p(xs[i]) <==> n <= i)
    ensures Filter(xs, p) == xs[n..]
  {
    FilterSplit(xs, n, p);
    FilterFront(xs, n, p, false);
    FilterBack(xs, n, p, true);
    var front, back := Filter(xs[..n], p), Filter(xs[n..], p);
    assert front == [] && back == xs[n..];
    assert front + back == xs[n..];
  }

  lemma FilterSplit<T>(xs: seq<T>, n: nat, p: T -> bool)
    requires n <= |xs|
    ensures Filter(xs, p) == Filter(xs[..n], p) + Filter(xs[n..], p)
  {
    assert xs == xs[..n] + xs[n..];
    FilterAppend(xs[..n], xs[n..], p);
  }

  lemma FilterFront<T>(xs: seq<T>, n: nat, p: T -> bool, pass: bool)
    requires n <= |xs|
    requires forall i :: 0 <= i < n ==> p(xs[i]) == pass
    ensures Filter(xs[..n], p) == if pass then xs[..n] else []
  {
    FilterUniform(xs[..n], p, pass);
  }

  lemma FilterBack<T>(xs: seq<T>, n: nat, p: T -> bool, pass: bool)
    requires n <= |xs|
    requires forall i :: n <= i < |xs| ==> p(xs[i]) == pass
    ensures Filter(xs[n..], p) == if pass then xs[n..] else []
  {
    var b := xs[n..];
    assert forall i :: 0 <= i < |b| ==> b[i] == xs[n + i];
    FilterUniform(b, p, pass);
  }

  /** A sequence on which `p` holds everywhere or nowhere. */
  lemma FilterUniform<T>(c: seq<T>, p: T -> bool, pass: bool)
    requires forall i :: 0 <= i < |c| ==> p(c[i]) == pass
    ensures Filter(c, p) == if pass then c else []
  {
    if pass {
      FilterAll(c, p);
    } else {
      FilterNone(c, p);
    }
  }

  /** Two filters with complementary predicates split `xs` between them. */
  lemma {:induction false} FilterPartition<T>(xs: seq<T>, p: T -> bool, q: T -> bool)
    requires forall x :: q(x) == !p(x)
    ensures multiset(Filter(xs, p)) + multiset(Filter(xs, q)) == multiset(xs)
  {
    if |xs| > 0 {
      FilterPartition(xs[1..], p, q);
      assert xs == [xs[0]] + xs[1..];
    }
  }

  /** `Array.prototype.map` with a callback that may throw: `f` applied to
      every element, or `None` when any application fails. */
  function MapAll<A, B>(xs: seq<A>, f: A -> Option<B>): (r: Option<seq<B>>)
    ensures r.Some? <==> forall i :: 0 <= i < |xs| ==> f(xs[i]).Some?
    ensures r.Some? ==> |r.value| == |xs| && forall i :: 0 <= i < |xs| ==> Some(r.value[i]) == f(xs[i])
  {
    if |xs| == 0 then Some([])
    else
      assert forall i :: 1 <= i < |xs| ==> xs[i] == xs[1..][i - 1];
      match f(xs[0])
      case None => None
      case Some(y) =>
        match MapAll(xs[1..], f)
        case None => None
        case Some(ys) => Some([y] + ys)
  }

  /** The index of the first element satisfying `p` (`findUnique`/`findFirst`). */
  function FirstIndex<T>(xs: seq<T>, p: T -> bool): (r: Option<nat>)
    ensures r.Some? ==> r.value < |xs| && p(xs[r.value])
    ensures r.Some? ==> forall j :: 0 <= j < r.value ==> !p(xs[j])
    ensures r.None? <==> forall j :: 0 <= j < |xs| ==> !p(xs[j])
  {
    if |xs| == 0 then None
    else if p(xs[0]) then Some(0)
    else match FirstIndex(xs[1..], p)
      case None => None
      case Some(k) => Some(k + 1)
  }

  /** The first element satisfying `p`, if any. */
  function FindFirst<T>(xs: seq<T>, p: T -> bool): (r: Option<T>)
    ensures r.Some? ==> p(r.value) && exists i :: 0 <= i < |xs| && xs[i] == r.value
    ensures r.None? <==> forall j :: 0 <= j < |xs| ==> !p(xs[j])
  {
    match FirstIndex(xs, p)
    case None => None
    case Some(i) => Some(xs[i])
  }

  /** `orderBy: { sort_order: 'asc' }`: non-decreasing in `key`. */
  predicate SortedBy<T>(xs: seq<T>, key: T -> int)
  {
    forall i, j :: 0 <= i < j < |xs| ==> key(xs[i]) <= key(xs[j])
  }

  /** Inserts `x` before the first element whose key is not smaller. */
  function InsertBy<T(==)>(x: T, xs: seq<T>, key: T -> int): (r: seq<T>)
    requires SortedBy(xs, key)
    ensures SortedBy(r, key)
    ensures multiset(r) == multiset(xs) + multiset{x}
    ensures |r| == |xs| + 1
  {
    if |xs| == 0 || key(x) <= key(xs[0]) then
      SortedFront(x, xs, key);
      [x] + xs
    else
      var rest := InsertBy(x, xs[1..], key);
      HeadBelow(x, xs, rest, key);
      SortedCons(xs[0], rest, key);
      assert xs == [xs[0]] + xs[1..];
      [xs[0]] + rest
  }

  /** Every element of a permutation of `xs[1..]` plus `x` has a key no
      smaller than `xs[0]`'s when `xs` is sorted and `x`'s key is larger. */
  lemma HeadBelow<T>(x: T, xs: seq<T>, rest: seq<T>, key: T -> int)
    requires |xs| > 0 && SortedBy(xs, key) && key(xs[0]) < key(x)
    requires multiset(rest) == multiset(xs[1..]) + multiset{x}
    ensures forall i :: 0 <= i < |rest| ==> key(xs[0]) <= key(rest[i])
  {
    forall i | 0 <= i < |rest|
      ensures key(xs[0]) <= key(rest[i])
    {
      assert rest[i] in multiset(rest);
      if rest[i] != x {
        assert rest[i] in multiset(xs[1..]);
        var j :| 0 <= j < |xs[1..]| && xs[1..][j] == rest[i];
        assert xs[j + 1] == rest[i];
      }
    }
  }

  lemma SortedFront<T>(x: T, xs: seq<T>, key: T -> int)
    requires SortedBy(xs, key)
    requires |xs| == 0 || key(x) <= key(xs[0])
    ensures SortedBy([x] + xs, key)
  {
    assert forall i :: 0 <= i < |xs| ==> key(x) <= key(xs[i]) by {
      forall i | 0 <= i < |xs|
        ensures key(x) <= key(xs[i])
      {
        assert key(xs[0]) <= key(xs[i]);
      }
    }
    SortedCons(x, xs, key);
  }

  lemma SortedCons<T>(h: T, rest: seq<T>, key: T -> int)
    requires SortedBy(rest, key)
    requires forall i :: 0 <= i < |rest| ==> key(h) <= key(rest[i])
    ensures SortedBy([h] + rest, key)
  {
    var r := [h] + rest;
    forall i, j | 0 <= i < j < |r|
      ensures key(r[i]) <= key(r[j])
    {
      assert r[j] == rest[j - 1];
      if i > 0 {
        assert r[i] == rest[i - 1];
      }
    }
  }

  /** A stable insertion sort by `key`: rows with equal keys keep their order. */
  function SortBy<T(==)>(xs: seq<T>, key: T -> int): (r: seq<T>)
    ensures SortedBy(r, key)
    ensures multiset(r) == multiset(xs)
    ensures |r| == |xs|
  {
    if |xs| == 0 then []
    else
      assert xs == [xs[0]] + xs[1..];
      InsertBy(xs[0], SortBy(xs[1..], key), key)
  }

  /** The elements of `xs` whose key is `k`, in order. */
  function KeyClass<T(==)>(xs: seq<T>, key: T -> int, k: int): seq<T>
  {
    Filter(xs, (y: T) => key(y) == k)
  }

  /** Inserting `x` puts it in front of every element with the same key. */
  lemma {:induction false} InsertByClass<T>(x: T, xs: seq<T>, key: T -> int, k: int)
    requires SortedBy(xs, key)
    ensures KeyClass(InsertBy(x, xs, key), key, k) ==
      if key(x) == k then [x] + KeyClass(xs, key, k) else KeyClass(xs, key, k)
  {
    if |xs| == 0 || key(x) <= key(xs[0]) {
      assert ([x] + xs)[1..] == xs;
    } else {
      var rest := InsertBy(x, xs[1..], key);
      InsertByClass(x, xs[1..], key, k);
      assert ([xs[0]] + rest)[1..] == rest;
    }
  }

  /** `SortBy` is stable: the elements sharing a key keep their order. */
  lemma {:induction false} SortByStable<T>(xs: seq<T>, key: T -> int, k: int)
    ensures KeyClass(SortBy(xs, key), key, k) == KeyClass(xs, key, k)
  {
    if |xs| > 0 {
      SortByStable(xs[1..], key, k);
      InsertByClass(xs[0], SortBy(xs[1..], key), key, k);
    }
  }

  /** Sorting an already sorted sequence returns it unchanged. */
  lemma {:induction false} SortBySorted<T>(xs: seq<T>, key: T -> int)
    requires SortedBy(xs, key)
    ensures SortBy(xs, key) == xs
  {
    if |xs| > 0 {
      assert SortedBy(xs[1..], key);
      SortBySorted(xs[1..], key);
      assert xs == [xs[0]] + xs[1..];
    }
  }

  /** The `skip`/`take` window of a query: at most `take` rows starting at `skip`. */
  function Window<T(==)>(xs: seq<T>, skip: nat, take: nat): (r: seq<T>)
    ensures |r| == if skip >= |xs| then 0 else Min(take, |xs| - skip)
    ensures forall i :: 0 <= i < |r| ==> r[i] == xs[skip + i]
    ensures multiset(r) <= multiset(xs)
  {
    if skip >= |xs| then []
    else
      var end := skip + Min(take, |xs| - skip);
      assert xs == xs[..skip] + xs[skip..end] + xs[end..];
      xs[skip..end]
  }

  /** A window of a sorted sequence is sorted. */
  lemma WindowSorted<T>(xs: seq<T>, skip: nat, take: nat, key: T -> int)
    requires SortedBy(xs, key)
    ensures SortedBy(Window(xs, skip, take), key)
  {
    var r := Window(xs, skip, take);
    forall i, j | 0 <= i < j < |r|
      ensures key(r[i]) <= key(r[j])
    {
      assert r[i] == xs[skip + i] && r[j] == xs[skip + j];
    }
  }

  /** Concatenation of a sequence of sequences. */
  function Flatten<T>(xss: seq<seq<T>>): seq<T>
  {
    if |xss| == 0 then [] else xss[0] + Flatten(xss[1..])
  }

  lemma {:induction false} FlattenAppend<T>(a: seq<seq<T>>, b: seq<seq<T>>)
    ensures Flatten(a + b) == Flatten(a) + Flatten(b)
  {
    if |a| == 0 {
      assert a + b == b;
    } else {
      assert (a + b)[1..] == a[1..] + b;
      FlattenAppend(a[1..], b);
    }
  }
}
